=== FILE: README.md ===
# pent's token compiler, as a Dafny model

pent turns a small mini-language into regular expressions that pull numbers
and text out of formatted output. This project models and proves the core of
that compiler:

- **enums**: the code characters of the `Number`, `Sign`, `StringMatchType`
  and `NumberMatchType` enumerations. It also covers the `Content`
  (`~ @ #`) and `Quantity` (`. +`) codes that the token grammar uses. Each
  has a decoder that fails on an unknown character.
- **errors**: `TokenError` and `SectionError` and their messages.
- **patterns**: the word-boundary wrappers, the number fragments, and the
  15-entry `number_patterns` table built by the module-level loop.
  Module `NumberGrammar` states what each fragment matches, as predicates on
  whole strings. It checks them against the sign/kind truth table of the
  test data.
- **token**: the recogniser of one token (`~`, `@…`, `#…`) and the
  `Token` object. The object's constructor builds its pattern step by step:
  it escapes literal text, looks up a number pattern, repeats the pattern
  for `+`, and optionally encloses it in a named group with a `{0}`
  placeholder.
- **parser**: the early `convert_line`. It is a loop over the tokens of a
  line that builds one anchored regex or raises `ValueError`.
- **utils**: `column_stack_2d`, a zip-and-concatenate over data blocks.
- **thrulist**: `ThruList.__getitem__`, which passes a key through to the
  only element of a one-element list.

Literal text is made of ASCII 32-126, the characters of pyparsing's `printables` plus the space. `printables` is ASCII-only, so the source refuses other characters too, and the model agrees with it there.

Generated patterns are strings here. What a pattern matches is stated only
for the number fragments, through the predicates of `NumberGrammar`.

Files: `wrappers.dfy` (Option, Result), `enums.dfy`, `errors.dfy`,
`patterns.dfy`, `number_grammar.dfy`, `tokens.dfy`, `parser.dfy`,
`utils.dfy`, `thrulist.dfy`.

## Model

| member | source | states |
|---|---|---|
| Enums.NumberOf | pent/enums.py:30-46 | `Number(c)`: a decoded member's code is `c`; decoding fails exactly when no member has code `c` |
| Enums.NumberRoundTrip | pent/enums.py:30-46 | decoding a member's code gives back that member, so the codes `i f s d g` are pairwise distinct |
| Enums.SignOf | pent/enums.py:49-59 | `Sign(c)`: a decoded member's code is `c`; fails exactly on characters other than `+ - .` |
| Enums.SignRoundTrip | pent/enums.py:49-59 | decoding a sign's code gives back that sign, so `+ - .` are distinct |
| Enums.StringMatchTypeOf | pent/enums.py:62-68 | decoding `=`/`!`; fails exactly on other characters |
| Enums.StringMatchTypeRoundTrip | pent/enums.py:62-68 | each string match type is recovered from its code, so `=` and `!` are distinct |
| Enums.NumberMatchTypeOf | pent/enums.py:72-88 | decoding `. ? + * #`; fails exactly on other characters |
| Enums.NumberMatchTypeRoundTrip | pent/enums.py:72-88 | each number match type is recovered from its code, so the five codes are distinct |
| Enums.ContentOf | pent/token.py:74-100 | decoding the content markers `~ @ #`; fails exactly on other characters |
| Enums.ContentRoundTrip | pent/token.py:74-100 | each content kind is recovered from its marker |
| Enums.QuantityOf | pent/token.py:68-70 | decoding the quantity codes `.`/`+`; fails exactly on other characters |
| Enums.QuantityRoundTrip | pent/token.py:68-70 | each quantity is recovered from its code |
| Errors.Message | pent/errors.py:34-55 | `str(TokenError(t))` is `'` + t + `' is an invalid pent token`; `str(SectionError(m))` is `Bad Parser section: ` + m |
| Errors.ErrorOfMessage | pent/errors.py:41-55 | whatever error it reads from a message has exactly that message |
| Errors.MessageRoundTrip | pent/errors.py:37-55 | the stored field (token or msg) is recovered unchanged from the message |
| Errors.MessageInjective | pent/errors.py:41-55 | two errors with the same message are the same error of the same kind |
| Errors.DefaultSectionMessage | pent/errors.py:49-55 | `SectionError()` has the empty message, so its text is the bare prefix |
| Patterns.WordifyOpen | pent/patterns.py:47-49 | prepends the negative lookbehind `(?<![w])`, adding `|w|`+7 characters |
| Patterns.WordifyClose | pent/patterns.py:52-54 | appends the negative lookahead `(?![w])`, adding `|w|`+6 characters |
| Patterns.WordifyPattern | pent/patterns.py:57-59 | the result is lookbehind + p + lookahead over the same class |
| Patterns.StdWordify | pent/patterns.py:62-64 | the same, with the standard word characters |
| Patterns.StdWordifyOpen | pent/patterns.py:67-69 | is `wordify_open` with the standard word characters |
| Patterns.StdWordifyClose | pent/patterns.py:72-74 | is `wordify_close` with the standard word characters |
| Patterns.StdWordifyComposes | pent/patterns.py:62-74 | opening and closing separately gives `std_wordify` |
| Patterns.UnwordifyRoundTrip | pent/patterns.py:57-59 | the wrapped pattern is recovered from the wrapped string, for every p and class |
| Patterns.StdWordCharsClass | pent/patterns.py:37-44 | the standard class `a-zA-Z0-9deDE+.-` holds exactly the ASCII letters, the digits and `+ . -` |
| Patterns.DashNotLastAdmitsComma | pent/patterns.py:40 | with `-` moved before `.`, the class would hold `,` (the range `+-.`); the real class does not |
| Patterns.FragmentsBraceFree | pent/patterns.py:76-82 | the Integer, Float and SciNot fragments hold neither `{` nor `}` |
| Patterns.NumPattern | pent/patterns.py:76-96 | no fragment of `_p_nums` holds a brace, and every kind other than Integer starts with `(` and ends with `)` |
| Patterns.SignPattern | pent/patterns.py:98 | no sign entry holds a brace; only Negative's entry starts with `-` and only Any's has `-` third, so the sign can be told from its entry |
| Patterns.NumberPattern | pent/patterns.py:104-105 | no entry of `number_patterns` holds a brace |
| Patterns.ProductPairs | pent/patterns.py:104 | `itertools.product(Number, Sign)` has 15 pairs, and every pair sits at its kind-major position |
| Patterns.ProductPairsDistinct | pent/patterns.py:104 | no pair occurs twice in the product |
| Patterns.ProductPairsComplete | pent/patterns.py:104 | every (Number, Sign) pair occurs in the product |
| Patterns.TableOfEntries | pent/patterns.py:102-105 | after the updates, the keys are exactly the pairs updated, each mapped to sign prefix + kind fragment |
| Patterns.TableOfSize | pent/patterns.py:102-105 | updating with distinct pairs adds one entry per pair |
| Patterns.TableOfEveryPair | pent/patterns.py:102-105 | updating once with every pair maps each pair to its entry and gives one entry per pair |
| Patterns.BuildNumberPatterns | pent/patterns.py:101-105 | the built table has exactly 15 entries, one per (Number, Sign) pair, each equal to `_p_signs[s] + _p_nums[n]` |
| Patterns.NumberPatternKey | pent/patterns.py:99-105 | a key read back from a pattern is a key whose table entry is that pattern |
| Patterns.NumberPatternKeyRoundTrip | pent/patterns.py:99-105 | every entry identifies its own key, so the 15 patterns are pairwise distinct |
| NumberGrammar.DigitsChars | pent/patterns.py:79 | `\d*` matches exactly the all-digit strings |
| NumberGrammar.IntChars | pent/patterns.py:77 | the Integer fragment `\d+` matches exactly the non-empty all-digit strings |
| NumberGrammar.DigitsDotDigitsChars | pent/patterns.py:79 | `\d*\.\d*` matches exactly the strings of digits with one point |
| NumberGrammar.DigitsDotDigits1Chars | pent/patterns.py:79 | `\d*\.\d+` matches exactly those that do not end in the point |
| NumberGrammar.FloatChars | pent/patterns.py:79 | the Float fragment matches exactly strings of digits and one point with at least one digit, so "0" does not match and "+0." (after its sign) does |
| NumberGrammar.SciCounts | pent/patterns.py:81-83 | a SciNot match has exactly one marker from `deDE` and at most one point |
| NumberGrammar.SciChars | pent/patterns.py:81-83 | a string matches the SciNot fragment exactly when it splits into an Integer or Float match followed by one marker from `deDE`, an optional sign and at least one digit |
| NumberGrammar.KindsDisjoint | pent/patterns.py:77-83 | no string matches two of the Integer, Float and SciNot fragments |
| NumberGrammar.KindMatches | pent/patterns.py:77-96 | the reference language of `_p_nums[n]`: Integer, Float and SciNot are `IsInt`, `IsFloat` and `IsSci`, Decimal is Float or SciNot, General is any of the three; every kind's match is non-empty and starts with a digit or a point |
| NumberGrammar.EntryMatches | pent/patterns.py:98-105 | the reference language of `number_patterns[(n, s)]`, the `_p_signs[s]` prefix then `_p_nums[n]`; a match is at most one sign followed by a digit or a point |
| NumberGrammar.SignEntries | pent/patterns.py:99-105 | Negative entries match only strings starting with `-`, Positive ones never do, and the Any entry matches exactly what Positive or Negative matches |
| NumberGrammar.UnsignedEntries | pent/patterns.py:99-105 | on an unsigned string, Positive and Any match exactly when the kind does, and Negative never matches |
| NumberGrammar.DoubleSignMatchesNothing | pent/test/testdata.py:463-479 | a string with two leading signs, such as "+-0.39", matches no entry of the table |
| NumberGrammar.MatchRowOrder | pent/test/testdata.py:54-71 | entry k of a truth-table row is number kind k/3 with sign k%3, the order of the test data |
| NumberGrammar.NumberSignRow0 | pent/test/testdata.py:55-71 | the literal `0` matches exactly the table entries marked True for it in the test data, in kind-major order |
| NumberGrammar.NumberSignRow1 | pent/test/testdata.py:72-88 | the literal `-0` matches exactly the table entries marked True for it in the test data, in kind-major order |
| NumberGrammar.NumberSignRow2 | pent/test/testdata.py:89-105 | the literal `+0.` matches exactly the table entries marked True for it in the test data, in kind-major order |
| NumberGrammar.NumberSignRow3 | pent/test/testdata.py:106-122 | the literal `-.00` matches exactly the table entries marked True for it in the test data, in kind-major order |
| NumberGrammar.NumberSignRow4 | pent/test/testdata.py:123-139 | the literal `+35` matches exactly the table entries marked True for it in the test data, in kind-major order |
| NumberGrammar.NumberSignRow5 | pent/test/testdata.py:140-156 | the literal `23` matches exactly the table entries marked True for it in the test data, in kind-major order |
| NumberGrammar.NumberSignRow6 | pent/test/testdata.py:157-173 | the literal `-12` matches exactly the table entries marked True for it in the test data, in kind-major order |
| NumberGrammar.NumberSignRow7 | pent/test/testdata.py:174-190 | the literal `.12` matches exactly the table entries marked True for it in the test data, in kind-major order |
| NumberGrammar.NumberSignRow8 | pent/test/testdata.py:191-207 | the literal `35.` matches exactly the table entries marked True for it in the test data, in kind-major order |
| NumberGrammar.NumberSignRow9 | pent/test/testdata.py:208-224 | the literal `+218.` matches exactly the table entries marked True for it in the test data, in kind-major order |
| NumberGrammar.NumberSignRow10 | pent/test/testdata.py:225-241 | the literal `+.355` matches exactly the table entries marked True for it in the test data, in kind-major order |
| NumberGrammar.NumberSignRow11 | pent/test/testdata.py:242-258 | the literal `0.23` matches exactly the table entries marked True for it in the test data, in kind-major order |
| NumberGrammar.NumberSignRow12 | pent/test/testdata.py:259-275 | the literal `-.22` matches exactly the table entries marked True for it in the test data, in kind-major order |
| NumberGrammar.NumberSignRow13 | pent/test/testdata.py:276-292 | the literal `-234.` matches exactly the table entries marked True for it in the test data, in kind-major order |
| NumberGrammar.NumberSignRow14 | pent/test/testdata.py:293-309 | the literal `-392.34` matches exactly the table entries marked True for it in the test data, in kind-major order |
| NumberGrammar.NumberSignRow15 | pent/test/testdata.py:310-326 | the literal `+3e3` matches exactly the table entries marked True for it in the test data, in kind-major order |
| NumberGrammar.NumberSignRow16 | pent/test/testdata.py:327-343 | the literal `+3e+3` matches exactly the table entries marked True for it in the test data, in kind-major order |
| NumberGrammar.NumberSignRow17 | pent/test/testdata.py:344-360 | the literal `+3e+003` matches exactly the table entries marked True for it in the test data, in kind-major order |
| NumberGrammar.NumberSignRow18 | pent/test/testdata.py:361-377 | the literal `3e+003` matches exactly the table entries marked True for it in the test data, in kind-major order |
| NumberGrammar.NumberSignRow19 | pent/test/testdata.py:378-394 | the literal `+3.e5` matches exactly the table entries marked True for it in the test data, in kind-major order |
| NumberGrammar.NumberSignRow20 | pent/test/testdata.py:395-411 | the literal `+2e-04` matches exactly the table entries marked True for it in the test data, in kind-major order |
| NumberGrammar.NumberSignRow21 | pent/test/testdata.py:412-428 | the literal `+.34e23` matches exactly the table entries marked True for it in the test data, in kind-major order |
| NumberGrammar.NumberSignRow22 | pent/test/testdata.py:429-445 | the literal `+.48e-2` matches exactly the table entries marked True for it in the test data, in kind-major order |
| NumberGrammar.NumberSignRow23 | pent/test/testdata.py:446-462 | the literal `-2e-04` matches exactly the table entries marked True for it in the test data, in kind-major order |
| NumberGrammar.NumberSignRow24 | pent/test/testdata.py:463-479 | the literal `+-0.39` matches exactly the table entries marked True for it in the test data, in kind-major order |
| Tokens.ParseFlags | pent/token.py:62-67 | the optional `x` then `!` flags are read greedily: `x` is read exactly when the text starts with `x`, and `!` exactly when the next character after any `x` is `!`; the flags read plus the rest give back the input |
| Tokens.ParseFlagsRender | pent/token.py:62-67 | flags followed by a character that is not a flag are read back exactly |
| Tokens.ParseSignNumber | pent/token.py:103-121 | a decoded (sign, number) pair is exactly the two-character body that was read |
| Tokens.ParseAfterFlags | pent/token.py:68-121 | what it accepts after marker and flags is well formed and renders back to marker + flags + rest |
| Tokens.ParseMarked | pent/token.py:88-121 | a literal-string or number parse is well formed and renders to the whole token |
| Tokens.ParseToken | pent/token.py:124-128 | an accepted token is well formed and renders to exactly the token text; a refused token fails with `TokenError` holding the text |
| Tokens.ParseFlagged | pent/token.py:88-121 | past the marker and flags, the outcome is decided by the quantity and body alone |
| Tokens.ParseRender | pent/token.py:124-128 | every well-formed parse result is recognised from its own text |
| Tokens.AcceptedIffRendered | pent/token.py:124-128 | a token is accepted with result `spec` if and only if it is the text of the well-formed `spec` |
| Tokens.EmptyTextRefused | pent/token.py:85-94 | a string marker with flags and quantity but no text is refused |
| Tokens.TrailingRefused | pent/token.py:124-128 | a complete number token followed by any extra characters is refused |
| Tokens.Escape | pent/token.py:226-237 | the escaped text is as long as the input plus the number of special characters |
| Tokens.UnescapeEscape | pent/token.py:226-237 | escaping loses nothing: unescaping gives back the text |
| Tokens.EscapeSnoc | pent/token.py:230-235 | escaping one more character appends that character's escape |
| Tokens.EscapeBracesEscaped | pent/token.py:231-233 | every `{` and every `}` in escaped text directly follows a backslash |
| Tokens.NumberPatternBracesEscaped | pent/patterns.py:77-105 | no table entry holds `{` or `}`, so none has an unescaped brace |
| Tokens.GroupEnclose | pent/token.py:246-270 | grouping gives `(?P<g{0}>`, then the pattern intact, then `)`; not grouping leaves the pattern unchanged |
| Tokens.GroupPlaceholder | pent/token.py:246-270 | a grouped pattern always holds the substring `{0}`; an ungrouped pattern whose braces all follow a backslash never does |
| Tokens.InnerPattern | pent/token.py:195-215 | every `{` and every `}` of a token's pattern before grouping follows a backslash, so the pattern holds no substring `{0}` of its own |
| Tokens.TokenPattern | pent/token.py:195-224 | `needs_group_id` holds exactly when `do_capture` and `!` are both set; exactly then the inner pattern is grouped, and exactly then the final pattern holds the substring `{0}` |
| Tokens.LiteralBraceBesidePlaceholder | pent/token.py:226-270 | the captured literal `@!.a{b` gives `(?P<g{0}>a\{b)`: besides the `{0}` placeholder, the pattern holds an escaped `{` that is not one |
| Tokens.LiteralPatternRecoversText | pent/token.py:203-209 | a string token's pattern is the escaped text, within `(`…`)+` for OneOrMore, and the text is recovered from it |
| Tokens.NumberRepeatShape | pent/token.py:211-215 | a OneOrMore number pattern is p, then `([ \t]+`, then p, then `)*` |
| Tokens.Token.constructor | pent/token.py:188-224 | for text that parses, the token stores its text and `do_capture`, and its pattern and `needs_group_id` are those of the parse result |
| Tokens.Token.Create | pent/token.py:188-193 | fails with `TokenError(token)` exactly when the text does not parse; otherwise it returns a fresh, valid token |
| Tokens.Token.CreateDefault | pent/token.py:44-45 | `Token(token)` asks for capture: it behaves as `Create` with `do_capture` true |
| Tokens.Token.IsAny | pent/token.py:136-139 | true exactly when the token starts with `~` |
| Tokens.Token.IsStr | pent/token.py:141-144 | true exactly when the token starts with `@` |
| Tokens.Token.IsNum | pent/token.py:146-149 | true exactly when the token starts with `#` |
| Tokens.Token.MatchQuantity | pent/token.py:151-157 | None exactly for an any token; otherwise the quantity whose code sits after the marker and flags |
| Tokens.Token.NumberKind | pent/token.py:159-165 | present exactly for number tokens, and then it is the kind coded by the last character |
| Tokens.Token.NumberSign | pent/token.py:167-173 | present exactly for number tokens, and then it is the sign coded by the next-to-last character |
| Tokens.Token.SpaceAfter | pent/token.py:175-181 | true exactly when the token is not an any token and no `x` follows the marker |
| Tokens.Token.Capture | pent/token.py:183-186 | true exactly when a `!` follows the marker, directly or after `x` |
| Tokens.Token.StringPattern | pent/token.py:226-237 | the loop builds the escaped text, from which the literal text is recovered |
| Tokens.Token.GetNumberPattern | pent/token.py:239-244 | the pattern is the table entry whose key is exactly the token's (number, sign) |
| Tokens.Token.SelectiveGroupEnclose | pent/token.py:261-270 | groups exactly when `do_capture` and `capture` both hold, and says so; for a pattern whose braces all follow a backslash, the substring `{0}` appears exactly then |
| LineParser.IntegerFragment | pent/parser.py:50-53 | `i` stands for the positive-integer entry between the lookbehind `(?<![` + word chars + `])` and the lookahead `(?![` + word chars + `])`, and that entry is recovered from it |
| LineParser.Fragment | pent/parser.py:45-61 | a token is refused exactly when it is not `*`, not `i` and does not start with `!` |
| LineParser.LiteralFragmentRecoversText | pent/parser.py:54-59 | the fragment of `!text` unescapes to `text` |
| LineParser.TokenFragments | pent/parser.py:46-59 | `*` adds `.*?`, `i` adds the wordified integer pattern, bare `!` adds nothing, and the empty token and `?` are refused |
| LineParser.BodyFailsIffBadToken | pent/parser.py:45-61 | a line is refused if and only if one of its tokens is |
| LineParser.BadPrefix | pent/parser.py:60-61 | one refused token makes the whole line fail |
| LineParser.BodyAppend | pent/parser.py:45-65 | fragments join with no separator: the body of two token runs is the concatenation of their bodies |
| LineParser.SingleTokenBody | pent/parser.py:45-59 | a one-token line's body is that token's fragment |
| LineParser.LineRegex | pent/parser.py:37-67 | a line gives `ValueError("BAD PATTERN, NEED CUSTOM ERRORS!")` exactly when one of its tokens is refused |
| LineParser.LineRegexShape | pent/parser.py:43-65 | an accepted line is `(^|(?<=\n))` + body + `.*?($|(?=\n))`; an empty line gives the two anchors only |
| LineParser.AppendLiteral | pent/parser.py:54-59 | the character loop appends exactly the escaped text after `!` |
| LineParser.AppendFragment | pent/parser.py:45-61 | one loop pass appends the token's fragment, or reports a refused token and appends nothing |
| LineParser.ConvertLine | pent/parser.py:37-67 | the loop returns the anchored line regex, or `ValueError("BAD PATTERN, NEED CUSTOM ERRORS!")` exactly when a token is refused |
| Utils.ShortestRows | pent/utils.py:32 | zip yields no rows without blocks, and otherwise the row count of the shortest block |
| Utils.ColumnStack2d | pent/utils.py:30-32 | there are as many output rows as zip yields |
| Utils.RowCountIsShortest | pent/utils.py:32 | the output has no more rows than any block and exactly as many as some block |
| Utils.NoBlocks | pent/utils.py:32 | an empty list of blocks gives an empty result |
| Utils.ChainRow | pent/utils.py:32 | the chain of row i across the blocks is as long as the sum of the lengths of row i across the blocks |
| Utils.RowContents | pent/utils.py:32 | each element of block j's row i sits in output row i after the rows of the earlier blocks |
| Utils.SingleBlock | pent/utils.py:32 | a single block is returned row for row |
| Utils.ChainRowAppend | pent/utils.py:32 | chaining row i over two runs of blocks concatenates the two chains |
| Utils.ColumnStackAppend | pent/utils.py:30-32 | stacking two runs of blocks truncates to the shorter run and concatenates their stacked rows |
| ThruLists.KeyNotFound | pent/thrulist.py:39 | the message is `Key '`, then the key's text intact, then `' not found on item 0` |
| ThruLists.ListGetItem | pent/thrulist.py:36-39 | plain list indexing never passes a key through, a slice never raises, an integer key finds an element exactly when it fits a 64-bit index and lies in [-len, len); otherwise it raises `cannot fit 'int' into an index-sized integer` when it does not fit and `list index out of range` when it does; any other key raises the not-found message |
| ThruLists.GetItem | pent/thrulist.py:31-39 | the element answers the key exactly when the key is not an integer and the list has one element; an integer key gives an element or an error; any other key on a list whose length is not 1 raises |
| ThruLists.Bound | pent/thrulist.py:37 | slice bounds resolve as in Python: missing takes the default, negative counts from the end, and out-of-range is clamped |
| ThruLists.PassThrough | pent/thrulist.py:33-34 | the element answers the key exactly when the key is not an integer and the list has one element |
| ThruLists.IntIndexing | pent/thrulist.py:35-37 | an integer key finds an element exactly when it fits a 64-bit index and lies in [-len, len), counting from the back when negative; otherwise `IndexError("cannot fit 'int' into an index-sized integer")` for a key outside [-2^63, 2^63) and `IndexError("list index out of range")` for any other |
| ThruLists.LastAtMinusOne | pent/thrulist.py:35-37 | key -1 gives the last element |
| ThruLists.OtherKeyRaises | pent/thrulist.py:38-39 | a key that is neither integer nor slice, on a list whose length is not 1, raises `IndexError` with the not-found message |
| ThruLists.SliceContents | pent/thrulist.py:35-37 | on a list whose length is not 1, a slice never raises: it has max(0, hi-lo) elements, those of the list from `lo` on |
| ThruLists.SliceSplit | pent/thrulist.py:35-37 | on a list whose length is not 1, `xs[:j] + xs[j:] == xs` for every j |

## Left out

- Whitespace skipping in the token grammar is not modelled. pyparsing skips blanks before every element, the end of the string included. It therefore accepts blanks after a complete token (`#..i `, `~ `), blanks between the marker, the flags and the quantity (`@ x . abc`), and blanks before literal text (`@. abc` has text `abc`, where the model reads ` abc`). It refuses literal text made only of blanks, which the model accepts as text. Tab expansion of the parsed string is not modelled either.
- Tokens.ParseToken: an accepted token renders back to exactly its text only in the model's grammar without blank skipping; the source also accepts the blank-padded forms above.
- Tokens.AcceptedIffRendered: the equivalence holds for the model's grammar only. The source also accepts texts with blanks between or after the elements, which are not the rendering of their parse result.
- Tokens.TrailingRefused: in the source, extra characters that are all blanks (`#..i `) are accepted; only extras holding a non-blank character are refused.
- The group id is filled into `{0}` by a `format` call of the head/body/tail `Parser`, which is not part of this model. `format` reads every brace of a pattern, and `\{`, the regex escape of a literal brace, is no escape to `format`. So a captured literal with a brace, such as `@!.a{b`, gives a pattern that `format` would reject (`Tokens.LiteralBraceBesidePlaceholder`). The placeholder statements here speak only of the substring `{0}`.
- `shlex.split` in `convert_line` is not modelled. The line is given already split into tokens, so quoting and shell escapes are not covered.
- Regex matching is not modelled. Patterns are strings, and only the number fragments carry a stated meaning, as predicates on whole strings. Those predicates take `\d` as the ASCII digits, while Python's `\d` also matches other Unicode digits.
- The head/body/tail `Parser` of pent/test/pent_livedata.py, with `capture_body`, `capture_struct` and the `&`, `?` and `o` flags, is not part of this model.
- The `TokenField` enumeration is left out. It only names result fields of the pyparsing parse, which `TokenSpec` holds as fields.
- `Content` and `Quantity` are not defined in pent/enums.py. They are defined here from their use in pent/token.py and in the test token strings (`~ @ #` and `. +`). pent/enums.py also defines `Number` and `Sign` as plain `Enum`, so the `"".join(Number)` and `"".join(Sign)` of the token grammar (pent/token.py:102-109) would raise `TypeError` when the class is defined. The model takes the evident str-valued reading: these grammar elements accept exactly the code letters `i f s d g` and `+ - .`.
- ThruLists.ListGetItem: the machine index width is that of a 64-bit build, [-2^63, 2^63). A 32-bit build has the narrower `Py_ssize_t` range [-2^31, 2^31), which is not modelled.
- Enums.NumberOf: an unknown code yields None rather than raising `ValueError`. The same holds for the other decoders.
- Tokens.Token.constructor: it requires text that parses. The failing path of `__attrs_post_init__`, which raises `TokenError`, is `Tokens.Token.Create`.
- Tokens.Token.GetNumberPattern: it reads the entry through `NumberPattern` instead of a stored dictionary. `Patterns.BuildNumberPatterns` proves that the built dictionary holds exactly these entries.
- The token's unreachable `NotImplementedError` branch is left out. The token kinds are exhaustive in `TokenSpec`.
- Slices in `ThruList` indexing have no step, and bounds are integers or missing. A slice with non-integer bounds raises `TypeError`, which the source turns into the not-found `IndexError`; that path is not modelled. Python's `bool` counting as `int` is not modelled either.
- In `ThruList` indexing, the element's own indexing is the parameter `inner`, and how a key prints is the parameter `show`. Their errors are whatever those functions return.
- The module-level `__main__` guards, which only print, are left out.

=== FILE: enums.dfy ===
/**
 * The code-character enumerations of pent (pent/enums.py), each with its
 * value (the code character) and the decoding of a character back to a
 * member. Python's `Enum(value)` raises ValueError on an unknown value;
 * here decoding returns None instead.
 *
 * `Content` and `Quantity` are used by pent/token.py but are not defined in
 * pent/enums.py; their codes are the marker characters the
 * token strings of the test suite use.
 */
module Enums {
  import opened Wrappers

  /** Kinds of number primitive. */
  datatype Number = Integer | Float | SciNot | Decimal | General

  function NumberValue(n: Number): char
  {
    match n
    case Integer => 'i'
    case Float => 'f'
    case SciNot => 's'
    case Decimal => 'd'
    case General => 'g'
  }

  /** `Number(c)`: the member whose value is `c`, if there is one. */
  function NumberOf(c: char): (r: Option<Number>)
    ensures r.Some? ==> NumberValue(r.value) == c
    ensures r.None? ==> forall n :: NumberValue(n) != c
  {
    if c == 'i' then Some(Integer)
    else if c == 'f' then Some(Float)
    else if c == 's' then Some(SciNot)
    else if c == 'd' then Some(Decimal)
    else if c == 'g' then Some(General)
    else None
  }

  lemma NumberRoundTrip(n: Number)
    ensures NumberOf(NumberValue(n)) == Some(n)
  {
  }

  /** Kinds of sign a number may carry. */
  datatype Sign = Positive | Negative | Any

  function SignValue(s: Sign): char
  {
    match s
    case Positive => '+'
    case Negative => '-'
    case Any => '.'
  }

  function SignOf(c: char): (r: Option<Sign>)
    ensures r.Some? ==> SignValue(r.value) == c
    ensures r.None? ==> forall s :: SignValue(s) != c
  {
    if c == '+' then Some(Positive)
    else if c == '-' then Some(Negative)
    else if c == '.' then Some(Any)
    else None
  }

  lemma SignRoundTrip(s: Sign)
    ensures SignOf(SignValue(s)) == Some(s)
  {
  }

  /** Match types on literal string fields. */
  datatype StringMatchType = Capture | Ignore

  function StringMatchTypeValue(m: StringMatchType): char
  {
    match m
    case Capture => '='
    case Ignore => '!'
  }

  function StringMatchTypeOf(c: char): (r: Option<StringMatchType>)
    ensures r.Some? ==> StringMatchTypeValue(r.value) == c
    ensures r.None? ==> forall m :: StringMatchTypeValue(m) != c
  {
    if c == '=' then Some(Capture)
    else if c == '!' then Some(Ignore)
    else None
  }

  lemma StringMatchTypeRoundTrip(m: StringMatchType)
    ensures StringMatchTypeOf(StringMatchTypeValue(m)) == Some(m)
  {
  }

  /** Match types on numeric fields. */
  datatype NumberMatchType = Single | Optional | OneOrMore | ZeroOrMore | Suppress

  function NumberMatchTypeValue(m: NumberMatchType): char
  {
    match m
    case Single => '.'
    case Optional => '?'
    case OneOrMore => '+'
    case ZeroOrMore => '*'
    case Suppress => '#'
  }

  function NumberMatchTypeOf(c: char): (r: Option<NumberMatchType>)
    ensures r.Some? ==> NumberMatchTypeValue(r.value) == c
    ensures r.None? ==> forall m :: NumberMatchTypeValue(m) != c
  {
    if c == '.' then Some(NumberMatchType.Single)
    else if c == '?' then Some(Optional)
    else if c == '+' then Some(NumberMatchType.OneOrMore)
    else if c == '*' then Some(ZeroOrMore)
    else if c == '#' then Some(Suppress)
    else None
  }

  lemma NumberMatchTypeRoundTrip(m: NumberMatchType)
    ensures NumberMatchTypeOf(NumberMatchTypeValue(m)) == Some(m)
  {
  }

  /** Content kinds of a token, named by the token's leading marker. */
  datatype Content = AnyContent | StringContent | NumberContent

  function ContentValue(k: Content): char
  {
    match k
    case AnyContent => '~'
    case StringContent => '@'
    case NumberContent => '#'
  }

  function ContentOf(c: char): (r: Option<Content>)
    ensures r.Some? ==> ContentValue(r.value) == c
    ensures r.None? ==> forall k :: ContentValue(k) != c
  {
    if c == '~' then Some(AnyContent)
    else if c == '@' then Some(StringContent)
    else if c == '#' then Some(NumberContent)
    else None
  }

  lemma ContentRoundTrip(k: Content)
    ensures ContentOf(ContentValue(k)) == Some(k)
  {
  }

  /** How many occurrences a string or number token matches. */
  datatype Quantity = Single | OneOrMore

  function QuantityValue(q: Quantity): char
  {
    match q
    case Single => '.'
    case OneOrMore => '+'
  }

  function QuantityOf(c: char): (r: Option<Quantity>)
    ensures r.Some? ==> QuantityValue(r.value) == c
    ensures r.None? ==> forall q :: QuantityValue(q) != c
  {
    if c == '.' then Some(Quantity.Single)
    else if c == '+' then Some(Quantity.OneOrMore)
    else None
  }

  lemma QuantityRoundTrip(q: Quantity)
    ensures QuantityOf(QuantityValue(q)) == Some(q)
  {
  }
}

=== FILE: errors.dfy ===
/**
 * The custom exceptions of pent (pent/errors.py). Both are kinds of
 * `PentError`; each stores one field and formats it into its message.
 */
module Errors {
  import opened Wrappers

  datatype PentError =
    | TokenError(token: string)   // the offending token text, stored unchanged
    | SectionError(msg: string)

  const TokenErrorSuffix := "' is an invalid pent token"
  const SectionErrorPrefix := "Bad Parser section: "

  /** `SectionError()` called without a message. */
  const DefaultSectionError := SectionError("")

  /** `str(e)`. */
  function Message(e: PentError): (m: string)
    ensures e.TokenError? ==>
      && |m| == |e.token| + 1 + |TokenErrorSuffix|
      && m[0] == '\'' && m[1..|m| - |TokenErrorSuffix|] == e.token
      && m[|m| - |TokenErrorSuffix|..] == TokenErrorSuffix
    ensures e.SectionError? ==>
      && |m| == |SectionErrorPrefix| + |e.msg|
      && m[..|SectionErrorPrefix|] == SectionErrorPrefix
      && m[|SectionErrorPrefix|..] == e.msg
  {
    match e
    case TokenError(t) => "'" + t + TokenErrorSuffix
    case SectionError(msg) => SectionErrorPrefix + msg
  }

  /**
   * Reads an error back from its message. It is the inverse of `Message`:
   * the two message forms never overlap, since one begins with a quote and
   * the other with 'B', and each carries its field in full.
   */
  function ErrorOfMessage(m: string): (r: Option<PentError>)
    ensures r.Some? ==> Message(r.value) == m
  {
    if |m| >= 1 + |TokenErrorSuffix| && m[0] == '\''
       && m[|m| - |TokenErrorSuffix|..] == TokenErrorSuffix
    then
      var t := m[1..|m| - |TokenErrorSuffix|];
      assert m == "'" + t + TokenErrorSuffix;
      Some(TokenError(t))
    else if |m| >= |SectionErrorPrefix| && m[..|SectionErrorPrefix|] == SectionErrorPrefix then
      assert m == SectionErrorPrefix + m[|SectionErrorPrefix|..];
      Some(SectionError(m[|SectionErrorPrefix|..]))
    else None
  }

  /** Every error can be recovered from its message. */
  lemma MessageRoundTrip(e: PentError)
    ensures ErrorOfMessage(Message(e)) == Some(e)
  {
    var m := Message(e);
    match e
    case TokenError(t) =>
      assert m[|m| - |TokenErrorSuffix|..] == TokenErrorSuffix;
    case SectionError(msg) =>
      assert m[0] == 'B';
      assert m[..|SectionErrorPrefix|] == SectionErrorPrefix;
  }

  /** Distinct errors have distinct messages. */
  lemma MessageInjective(e1: PentError, e2: PentError)
    requires Message(e1) == Message(e2)
    ensures e1 == e2
  {
    MessageRoundTrip(e1);
    MessageRoundTrip(e2);
  }

  lemma DefaultSectionMessage()
    ensures Message(DefaultSectionError) == SectionErrorPrefix
  {
  }
}

=== FILE: number_grammar.dfy ===
/**
 * What the number fragments of module Patterns match, as predicates on whole
 * strings. Each predicate reads its regex left to right: a `\d*` becomes a
 * loop on leading digits, an alternation a disjunction, an optional part a
 * disjunction of taking it or not. Digits are the ASCII digits.
 */
module NumberGrammar {
  import opened Enums
  import Patterns

  predicate IsDigit(c: char) { '0' <= c <= '9' }

  /** One of the exponent markers `deDE`. */
  predicate IsMarker(c: char) { c in Patterns.StdScinotMarkers }

  predicate Digits(s: string)
  {
    |s| == 0 || (IsDigit(s[0]) && Digits(s[1..]))
  }

  predicate Digits1(s: string)
  {
    |s| > 0 && IsDigit(s[0]) && Digits(s[1..])
  }

  predicate DigitsDotDigits(s: string)
  {
    |s| > 0 && ((s[0] == '.' && Digits(s[1..])) || (IsDigit(s[0]) && DigitsDotDigits(s[1..])))
  }

  predicate DigitsDotDigits1(s: string)
  {
    |s| > 0 && ((s[0] == '.' && Digits1(s[1..])) || (IsDigit(s[0]) && DigitsDotDigits1(s[1..])))
  }

  predicate SignedDigits1(s: string)
  {
    Digits1(s) || (|s| > 0 && (s[0] == '+' || s[0] == '-') && Digits1(s[1..]))
  }

  predicate Exponent(s: string)
  {
    |s| > 0 && IsMarker(s[0]) && SignedDigits1(s[1..])
  }

  predicate DigitsExp(s: string)
  {
    Exponent(s) || (|s| > 0 && IsDigit(s[0]) && DigitsExp(s[1..]))
  }

  predicate Digits1Exp(s: string)
  {
    |s| > 0 && IsDigit(s[0]) && DigitsExp(s[1..])
  }

  predicate OptDotExp(s: string)
  {
    || Exponent(s)
    || (|s| > 0 && s[0] == '.' && DigitsExp(s[1..]))
    || (|s| > 0 && IsDigit(s[0]) && OptDotExp(s[1..]))
  }

  predicate DotDigits1Exp(s: string)
  {
    |s| > 0 && ((s[0] == '.' && Digits1Exp(s[1..])) || (IsDigit(s[0]) && DotDigits1Exp(s[1..])))
  }

  predicate IsInt(s: string) { Digits1(s) }

  predicate IsFloat(s: string)
  {
    (|s| > 0 && IsDigit(s[0]) && DigitsDotDigits(s[1..])) || DigitsDotDigits1(s)
  }

  predicate IsSci(s: string)
  {
    (|s| > 0 && IsDigit(s[0]) && OptDotExp(s[1..])) || DotDigits1Exp(s)
  }

  /**
   * `_p_nums[n]`; Decimal and General are the alternations of the others.
   * Every kind starts with a digit or a decimal point, never with a sign.
   */
  predicate KindMatches(n: Number, s: string): (r: bool)
    ensures r ==> |s| > 0 && (IsDigit(s[0]) || s[0] == '.')
  {
    match n
    case Integer => IsInt(s)
    case Float => IsFloat(s)
    case SciNot => IsSci(s)
    case Decimal => IsFloat(s) || IsSci(s)
    case General => IsFloat(s) || IsSci(s) || IsInt(s)
  }

  /**
   * `number_patterns[(n, sg)]`, the sign prefix `[+]?`, `-` or `[+-]?` then
   * the kind: a match is at most one sign followed by a digit or a point.
   */
  predicate EntryMatches(n: Number, sg: Sign, s: string): (r: bool)
    ensures r ==> |s| > 0 && var t := if s[0] == '+' || s[0] == '-' then s[1..] else s;
      |t| > 0 && (IsDigit(t[0]) || t[0] == '.')
  {
    match sg
    case Positive => KindMatches(n, s) || (|s| > 0 && s[0] == '+' && KindMatches(n, s[1..]))
    case Negative => |s| > 0 && s[0] == '-' && KindMatches(n, s[1..])
    case Any => KindMatches(n, s) || (|s| > 0 && (s[0] == '+' || s[0] == '-') && KindMatches(n, s[1..]))
  }

  // ----- Character content of each number kind -----

  predicate AllDigits(s: string)
  {
    forall i | 0 <= i < |s| :: IsDigit(s[i])
  }

  /** Every character is a digit or a decimal point. */
  predicate DigitsOrDots(s: string)
  {
    forall i | 0 <= i < |s| :: s[i] == '.' || IsDigit(s[i])
  }

  function DotCount(s: string): nat
  {
    if |s| == 0 then 0 else (if s[0] == '.' then 1 else 0) + DotCount(s[1..])
  }

  function MarkerCount(s: string): nat
  {
    if |s| == 0 then 0 else (if IsMarker(s[0]) then 1 else 0) + MarkerCount(s[1..])
  }

  /** `\d*` matches exactly the strings of digits. */
  lemma {:induction false} DigitsChars(s: string)
    ensures Digits(s) <==> AllDigits(s)
  {
    if |s| > 0 {
      DigitsChars(s[1..]);
      assert forall i | 1 <= i < |s| :: s[i] == s[1..][i - 1];
    }
  }

  /** `\d+`, the Integer kind, matches exactly the non-empty strings of digits. */
  lemma IntChars(s: string)
    ensures IsInt(s) <==> |s| > 0 && AllDigits(s)
  {
    if |s| > 0 {
      DigitsChars(s[1..]);
      assert forall i | 1 <= i < |s| :: s[i] == s[1..][i - 1];
    }
  }

  /** A string of digits holds no decimal point and no exponent marker. */
  lemma {:induction false} AllDigitsCounts(s: string)
    requires AllDigits(s)
    ensures DotCount(s) == 0 && MarkerCount(s) == 0
  {
    if |s| > 0 {
      assert IsDigit(s[0]);
      AllDigitsCounts(s[1..]);
    }
  }

  /** Digits and points with no point are digits. */
  lemma {:induction false} NoDotsAllDigits(s: string)
    requires DigitsOrDots(s) && DotCount(s) == 0
    ensures AllDigits(s)
  {
    if |s| > 0 {
      NoDotsAllDigits(s[1..]);
      assert forall i | 1 <= i < |s| :: s[i] == s[1..][i - 1];
    }
  }

  /** `\d*\.\d*` matches exactly the strings of digits with one point. */
  lemma {:induction false} DigitsDotDigitsChars(s: string)
    ensures DigitsDotDigits(s) <==> DotCount(s) == 1 && DigitsOrDots(s)
  {
    if |s| > 0 {
      var t := s[1..];
      assert forall i | 1 <= i < |s| :: s[i] == t[i - 1];
      DigitsDotDigitsChars(t);
      DigitsChars(t);
      if AllDigits(t) {
        AllDigitsCounts(t);
      }
      if DigitsOrDots(t) && DotCount(t) == 0 {
        NoDotsAllDigits(t);
      }
    }
  }

  /** `\d*\.\d+` adds that the point is not the last character. */
  lemma {:induction false} DigitsDotDigits1Chars(s: string)
    ensures DigitsDotDigits1(s) <==> DotCount(s) == 1 && DigitsOrDots(s) && s[|s| - 1] != '.'
  {
    if |s| > 0 {
      var t := s[1..];
      assert forall i | 1 <= i < |s| :: s[i] == t[i - 1];
      DigitsDotDigits1Chars(t);
      DigitsChars(t);
      IntChars(t);
      if AllDigits(t) {
        AllDigitsCounts(t);
      }
      if DigitsOrDots(t) && DotCount(t) == 0 {
        NoDotsAllDigits(t);
      }
      if |t| > 0 {
        assert s[|s| - 1] == t[|t| - 1];
      }
    }
  }

  /**
   * The Float kind, `(\d+\.\d*|\d*\.\d+)`, matches exactly the strings
   * of at least two characters made of digits and one decimal point.
   */
  lemma FloatChars(s: string)
    ensures IsFloat(s) <==> |s| >= 2 && DotCount(s) == 1 && DigitsOrDots(s)
  {
    DigitsDotDigits1Chars(s);
    if |s| > 0 {
      var t := s[1..];
      assert forall i | 1 <= i < |s| :: s[i] == t[i - 1];
      DigitsDotDigitsChars(t);
      if |s| >= 2 && DotCount(s) == 1 && DigitsOrDots(s) && s[0] == '.' {
        NoDotsAllDigits(t);
        assert s[|s| - 1] == t[|t| - 1];
      }
    }
  }

  /** An exponent `[deDE][+-]?\d+` holds one marker and no point. */
  lemma ExponentCounts(s: string)
    requires Exponent(s)
    ensures MarkerCount(s) == 1 && DotCount(s) == 0
  {
    var t := s[1..];
    if Digits1(t) {
      IntChars(t);
      AllDigitsCounts(t);
    } else {
      IntChars(t[1..]);
      AllDigitsCounts(t[1..]);
    }
  }

  lemma {:induction false} DigitsExpCounts(s: string)
    requires DigitsExp(s)
    ensures MarkerCount(s) == 1 && DotCount(s) == 0
  {
    if Exponent(s) {
      ExponentCounts(s);
    } else {
      DigitsExpCounts(s[1..]);
    }
  }

  lemma {:induction false} OptDotExpCounts(s: string)
    requires OptDotExp(s)
    ensures MarkerCount(s) == 1 && DotCount(s) <= 1
  {
    if Exponent(s) {
      ExponentCounts(s);
    } else if s[0] == '.' && DigitsExp(s[1..]) {
      DigitsExpCounts(s[1..]);
    } else {
      OptDotExpCounts(s[1..]);
    }
  }

  lemma {:induction false} DotDigits1ExpCounts(s: string)
    requires DotDigits1Exp(s)
    ensures MarkerCount(s) == 1 && DotCount(s) == 1
  {
    if s[0] == '.' && Digits1Exp(s[1..]) {
      DigitsExpCounts(s[2..]);
      assert s[1..][1..] == s[2..];
    } else {
      DotDigits1ExpCounts(s[1..]);
    }
  }

  /** A SciNot literal holds exactly one exponent marker and at most one point. */
  lemma SciCounts(s: string)
    requires IsSci(s)
    ensures MarkerCount(s) == 1 && DotCount(s) <= 1
  {
    if |s| > 0 && IsDigit(s[0]) && OptDotExp(s[1..]) {
      OptDotExpCounts(s[1..]);
    } else {
      DotDigits1ExpCounts(s);
    }
  }

  // ----- The SciNot kind as mantissa and exponent -----

  /** A `\d*[deDE][+-]?\d+` match splits into its digits and its exponent. */
  lemma {:induction false} DigitsExpSplit(s: string) returns (k: nat)
    requires DigitsExp(s)
    ensures k < |s| && Digits(s[..k]) && Exponent(s[k..])
  {
    if Exponent(s) {
      k := 0;
    } else {
      var j := DigitsExpSplit(s[1..]);
      k := j + 1;
      assert s[..k][1..] == s[1..][..j];
      assert s[k..] == s[1..][j..];
    }
  }

  lemma {:induction false} DigitsExpJoin(s: string, k: nat)
    requires k < |s| && Digits(s[..k]) && Exponent(s[k..])
    ensures DigitsExp(s)
  {
    if k == 0 {
      assert s[k..] == s;
    } else {
      assert s[..k][1..] == s[1..][..k - 1];
      assert s[k..] == s[1..][k - 1..];
      DigitsExpJoin(s[1..], k - 1);
    }
  }

  /** A `\d*\.?\d*[deDE][+-]?\d+` match splits into digits with at most one point, then its exponent. */
  lemma {:induction false} OptDotExpSplit(s: string) returns (k: nat)
    requires OptDotExp(s)
    ensures k < |s| && (Digits(s[..k]) || DigitsDotDigits(s[..k])) && Exponent(s[k..])
  {
    if Exponent(s) {
      k := 0;
    } else if s[0] == '.' && DigitsExp(s[1..]) {
      var j := DigitsExpSplit(s[1..]);
      k := j + 1;
      assert s[..k][1..] == s[1..][..j];
      assert s[k..] == s[1..][j..];
    } else {
      var j := OptDotExpSplit(s[1..]);
      k := j + 1;
      assert s[..k][1..] == s[1..][..j];
      assert s[k..] == s[1..][j..];
    }
  }

  lemma {:induction false} OptDotExpJoin(s: string, k: nat)
    requires k < |s| && (Digits(s[..k]) || DigitsDotDigits(s[..k])) && Exponent(s[k..])
    ensures OptDotExp(s)
  {
    if k == 0 {
      assert s[k..] == s;
    } else {
      assert s[..k][1..] == s[1..][..k - 1];
      assert s[k..] == s[1..][k - 1..];
      if s[0] == '.' {
        DigitsExpJoin(s[1..], k - 1);
      } else {
        OptDotExpJoin(s[1..], k - 1);
      }
    }
  }

  /** A `\d*\.\d+[deDE][+-]?\d+` match splits into a `\d*\.\d+` mantissa and its exponent. */
  lemma {:induction false} DotDigits1ExpSplit(s: string) returns (k: nat)
    requires DotDigits1Exp(s)
    ensures 0 < k < |s| && DigitsDotDigits1(s[..k]) && Exponent(s[k..])
  {
    if s[0] == '.' && Digits1Exp(s[1..]) {
      var j := DigitsExpSplit(s[2..]);
      k := j + 2;
      assert s[1..][1..] == s[2..];
      assert s[..k][1..][1..] == s[2..][..j];
      assert s[k..] == s[2..][j..];
    } else {
      var j := DotDigits1ExpSplit(s[1..]);
      k := j + 1;
      assert s[..k][1..] == s[1..][..j];
      assert s[k..] == s[1..][j..];
    }
  }

  lemma {:induction false} DotDigits1ExpJoin(s: string, k: nat)
    requires k < |s| && DigitsDotDigits1(s[..k]) && Exponent(s[k..])
    ensures DotDigits1Exp(s)
  {
    assert s[..k][1..] == s[1..][..k - 1];
    assert s[k..] == s[1..][k - 1..];
    if s[0] == '.' {
      assert s[..k][1..][1..] == s[2..][..k - 2];
      assert s[k..] == s[2..][k - 2..];
      DigitsExpJoin(s[2..], k - 2);
      assert s[1..][1..] == s[2..];
    } else {
      DotDigits1ExpJoin(s[1..], k - 1);
    }
  }

  /**
   * The SciNot kind matches exactly a mantissa that is an Integer or a Float
   * literal, followed by one marker from `deDE`, an optional sign and a
   * non-empty run of digits.
   */
  lemma SciChars(s: string)
    ensures IsSci(s) <==> exists k | 0 < k < |s| :: (IsInt(s[..k]) || IsFloat(s[..k])) && Exponent(s[k..])
  {
    if IsSci(s) {
      var k: nat;
      if |s| > 0 && IsDigit(s[0]) && OptDotExp(s[1..]) {
        var j := OptDotExpSplit(s[1..]);
        k := j + 1;
        assert s[..k][1..] == s[1..][..j];
        assert s[k..] == s[1..][j..];
      } else {
        k := DotDigits1ExpSplit(s);
      }
      assert (IsInt(s[..k]) || IsFloat(s[..k])) && Exponent(s[k..]);
    }
    forall k | 0 < k < |s| && (IsInt(s[..k]) || IsFloat(s[..k])) && Exponent(s[k..])
      ensures IsSci(s)
    {
      var p := s[..k];
      assert p[1..] == s[1..][..k - 1];
      assert s[k..] == s[1..][k - 1..];
      if IsInt(p) || (IsDigit(p[0]) && DigitsDotDigits(p[1..])) {
        OptDotExpJoin(s[1..], k - 1);
      } else {
        DotDigits1ExpJoin(s, k);
      }
    }
  }

  /**
   * No literal is of two of the basic kinds: integers have no point and no
   * marker, floats one point and no marker, scientific literals one marker.
   */
  lemma KindsDisjoint(s: string)
    ensures !(IsInt(s) && IsFloat(s))
    ensures !(IsInt(s) && IsSci(s))
    ensures !(IsFloat(s) && IsSci(s))
  {
    IntChars(s);
    FloatChars(s);
    if IsInt(s) {
      AllDigitsCounts(s);
    }
    if IsFloat(s) {
      FloatNoMarker(s);
    }
    if IsSci(s) {
      SciCounts(s);
    }
  }

  /** Digits and points hold no marker. */
  lemma {:induction false} FloatNoMarker(s: string)
    requires DigitsOrDots(s)
    ensures MarkerCount(s) == 0
  {
    if |s| > 0 {
      assert forall i | 1 <= i < |s| :: s[i] == s[1..][i - 1];
      FloatNoMarker(s[1..]);
    }
  }

  // ----- Signs -----

  /**
   * The sign entries split on the first character: Negative demands a
   * leading `-`, Positive refuses one, and Any is the union of the two.
   */
  lemma SignEntries(n: Number, s: string)
    ensures EntryMatches(n, Negative, s) ==> s[0] == '-'
    ensures EntryMatches(n, Positive, s) ==> s[0] != '-'
    ensures EntryMatches(n, Any, s) <==> EntryMatches(n, Positive, s) || EntryMatches(n, Negative, s)
  {
  }

  /** Without a leading sign, the Positive and Any entries match exactly the bare kind. */
  lemma UnsignedEntries(n: Number, s: string)
    requires |s| == 0 || (s[0] != '+' && s[0] != '-')
    ensures EntryMatches(n, Positive, s) <==> KindMatches(n, s)
    ensures EntryMatches(n, Any, s) <==> KindMatches(n, s)
    ensures !EntryMatches(n, Negative, s)
  {
  }

  /** Two leading signs, as in `+-0.39`, match no entry. */
  lemma DoubleSignMatchesNothing(n: Number, sg: Sign, s: string)
    requires |s| >= 2 && (s[0] == '+' || s[0] == '-') && (s[1] == '+' || s[1] == '-')
    ensures !EntryMatches(n, sg, s)
  {
  }

  // ----- The number/sign truth table of the test data -----

  const T := true
  const F := false

  /**
   * Whether `s` matches each entry of the table, in the order the table is
   * built: Integer, Float, SciNot, Decimal, General, each with Positive,
   * Negative, Any.
   */
  function MatchRow(s: string): seq<bool>
  {
    [ EntryMatches(Integer, Positive, s), EntryMatches(Integer, Negative, s), EntryMatches(Integer, Any, s),
      EntryMatches(Float, Positive, s), EntryMatches(Float, Negative, s), EntryMatches(Float, Any, s),
      EntryMatches(SciNot, Positive, s), EntryMatches(SciNot, Negative, s), EntryMatches(SciNot, Any, s),
      EntryMatches(Decimal, Positive, s), EntryMatches(Decimal, Negative, s), EntryMatches(Decimal, Any, s),
      EntryMatches(General, Positive, s), EntryMatches(General, Negative, s), EntryMatches(General, Any, s) ]
  }

  /** Entry `k` of a row is the match of number kind `k / 3` with sign `k % 3`. */
  lemma MatchRowOrder(s: string)
    ensures |MatchRow(s)| == |Patterns.AllNumbers| * |Patterns.AllSigns|
    ensures forall k | 0 <= k < |MatchRow(s)| ::
      MatchRow(s)[k] == EntryMatches(Patterns.AllNumbers[k / 3], Patterns.AllSigns[k % 3], s)
  {
  }

  // One lemma per sample literal of the test data: the row lists, in
  // `MatchRow` order, which of the fifteen entries the literal matches.

  lemma NumberSignRow0()
    ensures MatchRow("0") == [T, F, T, F, F, F, F, F, F, F, F, F, T, F, T]
  {
  }

  lemma NumberSignRow1()
    ensures MatchRow("-0") == [F, T, T, F, F, F, F, F, F, F, F, F, F, T, T]
  {
  }

  lemma NumberSignRow2()
    ensures MatchRow("+0.") == [F, F, F, T, F, T, F, F, F, T, F, T, T, F, T]
  {
  }

  lemma NumberSignRow3()
    ensures MatchRow("-.00") == [F, F, F, F, T, T, F, F, F, F, T, T, F, T, T]
  {
  }

  lemma NumberSignRow4()
    ensures MatchRow("+35") == [T, F, T, F, F, F, F, F, F, F, F, F, T, F, T]
  {
  }

  lemma NumberSignRow5()
    ensures MatchRow("23") == [T, F, T, F, F, F, F, F, F, F, F, F, T, F, T]
  {
  }

  lemma NumberSignRow6()
    ensures MatchRow("-12") == [F, T, T, F, F, F, F, F, F, F, F, F, F, T, T]
  {
  }

  lemma NumberSignRow7()
    ensures MatchRow(".12") == [F, F, F, T, F, T, F, F, F, T, F, T, T, F, T]
  {
  }

  lemma NumberSignRow8()
    ensures MatchRow("35.") == [F, F, F, T, F, T, F, F, F, T, F, T, T, F, T]
  {
  }

  lemma NumberSignRow9()
    ensures MatchRow("+218.") == [F, F, F, T, F, T, F, F, F, T, F, T, T, F, T]
  {
  }

  lemma NumberSignRow10()
    ensures MatchRow("+.355") == [F, F, F, T, F, T, F, F, F, T, F, T, T, F, T]
  {
  }

  lemma NumberSignRow11()
    ensures MatchRow("0.23") == [F, F, F, T, F, T, F, F, F, T, F, T, T, F, T]
  {
  }

  lemma NumberSignRow12()
    ensures MatchRow("-.22") == [F, F, F, F, T, T, F, F, F, F, T, T, F, T, T]
  {
  }

  lemma NumberSignRow13()
    ensures MatchRow("-234.") == [F, F, F, F, T, T, F, F, F, F, T, T, F, T, T]
  {
  }

  lemma NumberSignRow14()
    ensures MatchRow("-392.34") == [F, F, F, F, T, T, F, F, F, F, T, T, F, T, T]
  {
  }

  lemma NumberSignRow15()
    ensures MatchRow("+3e3") == [F, F, F, F, F, F, T, F, T, T, F, T, T, F, T]
  {
  }

  lemma NumberSignRow16()
    ensures MatchRow("+3e+3") == [F, F, F, F, F, F, T, F, T, T, F, T, T, F, T]
  {
  }

  lemma NumberSignRow17()
    ensures MatchRow("+3e+003") == [F, F, F, F, F, F, T, F, T, T, F, T, T, F, T]
  {
  }

  lemma NumberSignRow18()
    ensures MatchRow("3e+003") == [F, F, F, F, F, F, T, F, T, T, F, T, T, F, T]
  {
  }

  lemma NumberSignRow19()
    ensures MatchRow("+3.e5") == [F, F, F, F, F, F, T, F, T, T, F, T, T, F, T]
  {
  }

  lemma NumberSignRow20()
    ensures MatchRow("+2e-04") == [F, F, F, F, F, F, T, F, T, T, F, T, T, F, T]
  {
  }

  lemma NumberSignRow21()
    ensures MatchRow("+.34e23") == [F, F, F, F, F, F, T, F, T, T, F, T, T, F, T]
  {
  }

  lemma NumberSignRow22()
    ensures MatchRow("+.48e-2") == [F, F, F, F, F, F, T, F, T, T, F, T, T, F, T]
  {
  }

  lemma NumberSignRow23()
    ensures MatchRow("-2e-04") == [F, F, F, F, F, F, F, T, T, F, T, T, F, T, T]
  {
  }

  lemma NumberSignRow24()
    ensures MatchRow("+-0.39") == [F, F, F, F, F, F, F, F, F, F, F, F, F, F, F]
  {
  }
}

=== FILE: parser.dfy ===
/**
 * The early line converter of pent (`Parser.convert_line`, pent/parser.py):
 * each token of a line adds one fragment to an anchored line regex.
 *
 *   `*`        any content, lazily;
 *   `i`        a positive integer between word boundaries;
 *   `!text`    the text, escaped as literal-string tokens escape it;
 *   anything else is refused with a `ValueError`.
 *
 * The line is given already split into tokens.
 */
module LineParser {
  import opened Wrappers
  import opened Enums
  import Patterns
  import Tokens

  /** Start of a line: the string start or just after a newline. */
  const LineStart := "(^|(?<=\\n))"

  /** Anything up to the end of the line. */
  const LineEnd := ".*?($|(?=\\n))"

  const BadPatternMessage := "BAD PATTERN, NEED CUSTOM ERRORS!"

  datatype LineError = ValueError(msg: string)

  const LiteralMarker := '!'

  /** The word-bounded positive integer that `i` stands for. */
  function IntegerFragment(): (r: string)
    ensures |r| >= |Patterns.StdWordChars| * 2 + 13
    ensures r[..|Patterns.StdWordChars| + 7] == "(?<![" + Patterns.StdWordChars + "])"
    ensures r[|r| - |Patterns.StdWordChars| - 6..] == "(?![" + Patterns.StdWordChars + "])"
    ensures Patterns.Unwordify(r, Patterns.StdWordChars) == Patterns.NumberPattern(Integer, Positive)
  {
    var w, p := Patterns.StdWordChars, Patterns.NumberPattern(Integer, Positive);
    Patterns.UnwordifyRoundTrip(p, w);
    var r := Patterns.StdWordify(p);
    assert r == Patterns.NotAfter(w) + p + Patterns.NotBefore(w);
    assert r[..|w| + 7] == Patterns.NotAfter(w);
    assert r[|r| - |w| - 6..] == Patterns.NotBefore(w);
    r
  }

  /** The fragment one token adds, or None for a token the converter refuses. */
  function Fragment(t: string): (r: Option<string>)
    ensures r.None? <==> t != "*" && t != "i" && (|t| == 0 || t[0] != LiteralMarker)
  {
    if t == "*" then Some(Tokens.AnyPattern)
    else if t == "i" then Some(IntegerFragment())
    else if |t| > 0 && t[0] == LiteralMarker then Some(Tokens.Escape(t[1..]))
    else None
  }

  /** The fragment of a `!` token unescapes to the text after the marker. */
  lemma LiteralFragmentRecoversText(t: string)
    requires |t| > 0 && t[0] == LiteralMarker
    ensures Fragment(t).Some? && Tokens.Unescape(Fragment(t).value) == t[1..]
  {
    Tokens.UnescapeEscape(t[1..]);
  }

  /** Joins fragments in order with no separator; None as soon as one is missing. */
  function Join(fs: seq<Option<string>>): Option<string>
  {
    if |fs| == 0 then Some("")
    else
      var init := Join(fs[..|fs| - 1]);
      if init.Some? && fs[|fs| - 1].Some? then Some(init.value + fs[|fs| - 1].value) else None
  }

  /** The fragment of each token, in token order. */
  function Fragments(tokens: seq<string>): seq<Option<string>>
  {
    seq(|tokens|, i requires 0 <= i < |tokens| => Fragment(tokens[i]))
  }

  /** The fragments of all tokens, concatenated in order; None if any token is refused. */
  function Body(tokens: seq<string>): Option<string>
  {
    Join(Fragments(tokens))
  }

  /** What `convert_line` returns or raises for a line of these tokens: a `ValueError` exactly when some token is refused. */
  function LineRegex(tokens: seq<string>): (r: Result<string, LineError>)
    ensures r.Failure? <==> exists i | 0 <= i < |tokens| :: Fragment(tokens[i]).None?
    ensures r.Failure? ==> r.error == ValueError(BadPatternMessage)
  {
    BodyFailsIffBadToken(tokens);
    match Body(tokens)
    case None => Failure(ValueError(BadPatternMessage))
    case Some(b) => Success(LineStart + b + LineEnd)
  }

  lemma {:induction false} JoinNoneIff(fs: seq<Option<string>>)
    ensures Join(fs).None? <==> exists i | 0 <= i < |fs| :: fs[i].None?
  {
    if |fs| > 0 {
      var init := fs[..|fs| - 1];
      JoinNoneIff(init);
      assert forall i | 0 <= i < |init| :: init[i] == fs[i];
    }
  }

  lemma JoinSnoc(fs: seq<Option<string>>, f: Option<string>)
    ensures Join(fs + [f]) == if Join(fs).Some? && f.Some? then Some(Join(fs).value + f.value) else None
  {
    assert (fs + [f])[..|fs|] == fs;
  }

  lemma {:induction false} JoinAppend(a: seq<Option<string>>, b: seq<Option<string>>)
    requires Join(a).Some? && Join(b).Some?
    ensures Join(a + b) == Some(Join(a).value + Join(b).value)
  {
    if |b| == 0 {
      assert a + b == a;
      assert Join(a).value + "" == Join(a).value;
    } else {
      var init, last := b[..|b| - 1], b[|b| - 1];
      assert b == init + [last];
      JoinSnoc(init, last);
      JoinAppend(a, init);
      assert a + b == (a + init) + [last];
      JoinSnoc(a + init, last);
      var x, y, z := Join(a).value, Join(init).value, last.value;
      assert (x + y) + z == x + (y + z);
    }
  }

  lemma FragmentsAppend(a: seq<string>, b: seq<string>)
    ensures Fragments(a + b) == Fragments(a) + Fragments(b)
  {
    assert forall i | 0 <= i < |a + b| :: (a + b)[i] == if i < |a| then a[i] else b[i - |a|];
  }

  /** A line is refused exactly when one of its tokens is. */
  lemma BodyFailsIffBadToken(tokens: seq<string>)
    ensures Body(tokens).None? <==> exists i | 0 <= i < |tokens| :: Fragment(tokens[i]).None?
  {
    var fs := Fragments(tokens);
    JoinNoneIff(fs);
    assert forall i | 0 <= i < |tokens| :: fs[i] == Fragment(tokens[i]);
  }

  /** Fragments are joined without separators: the body of two token runs is the join of their bodies. */
  lemma BodyAppend(a: seq<string>, b: seq<string>)
    requires Body(a).Some? && Body(b).Some?
    ensures Body(a + b) == Some(Body(a).value + Body(b).value)
  {
    FragmentsAppend(a, b);
    JoinAppend(Fragments(a), Fragments(b));
  }

  /** `*` adds the lazy any-pattern, `i` the word-bounded integer, and a bare `!` nothing. */
  lemma TokenFragments()
    ensures Fragment("*") == Some(".*?")
    ensures Fragment("i") == Some(Patterns.StdWordify(Patterns.NumberPattern(Integer, Positive)))
    ensures Fragment("!") == Some("")
    ensures Fragment("").None? && Fragment("?").None?
  {
    assert "!"[1..] == [];
  }

  /** Extending an accepted prefix by one token either appends its fragment or refuses the line. */
  lemma BodyStep(tokens: seq<string>, k: nat)
    requires k < |tokens| && Body(tokens[..k]).Some?
    ensures Fragment(tokens[k]).Some? ==>
      Body(tokens[..k + 1]) == Some(Body(tokens[..k]).value + Fragment(tokens[k]).value)
    ensures Fragment(tokens[k]).None? ==> Body(tokens).None?
  {
    assert Fragments(tokens[..k + 1]) == Fragments(tokens[..k]) + [Fragment(tokens[k])];
    JoinSnoc(Fragments(tokens[..k]), Fragment(tokens[k]));
    BadPrefix(tokens, k);
  }

  /** A line of one accepted token yields exactly that token's fragment. */
  lemma SingleTokenBody(t: string)
    requires Fragment(t).Some?
    ensures Body([t]) == Fragment(t)
  {
    assert Fragments([t]) == [] + [Fragment(t)];
    JoinSnoc([], Fragment(t));
    assert "" + Fragment(t).value == Fragment(t).value;
  }

  /**
   * Every accepted line is anchored: the line start, then the body, then the
   * rest of the line; an empty line is just the two anchors.
   */
  lemma LineRegexShape(tokens: seq<string>)
    ensures LineRegex(tokens).Failure? <==> exists i | 0 <= i < |tokens| :: Fragment(tokens[i]).None?
    ensures LineRegex(tokens).Success? ==>
      var r := LineRegex(tokens).value;
      && |r| >= |LineStart| + |LineEnd|
      && r[..|LineStart|] == LineStart
      && r[|r| - |LineEnd|..] == LineEnd
      && r[|LineStart|..|r| - |LineEnd|] == Body(tokens).value
    ensures LineRegex([]) == Success(LineStart + LineEnd)
  {
    BodyFailsIffBadToken(tokens);
    if Body(tokens).Some? {
      var b := Body(tokens).value;
      var r := LineStart + b + LineEnd;
      assert r[..|LineStart|] == LineStart;
      assert r[|r| - |LineEnd|..] == LineEnd;
      assert r[|LineStart|..|r| - |LineEnd|] == b;
    }
    assert LineStart + "" + LineEnd == LineStart + LineEnd;
  }

  /** Once a prefix holds a refused token, the whole line is refused. */
  lemma BadPrefix(tokens: seq<string>, k: nat)
    requires k < |tokens|
    ensures Fragment(tokens[k]).None? ==> Body(tokens).None?
  {
    BodyFailsIffBadToken(tokens);
  }

  /** The inner loop of `convert_line`: appends the text after `!`, escaped. */
  method AppendLiteral(pattern: string, t: string) returns (p: string)
    requires |t| > 0 && t[0] == LiteralMarker
    ensures p == pattern + Tokens.Escape(t[1..])
  {
    p := pattern;
    var j := 1;
    while j < |t|
      invariant 1 <= j <= |t|
      invariant p == pattern + Tokens.Escape(t[1..j])
    {
      var c := t[j];
      Tokens.EscapeSnoc(t[1..j], c);
      assert t[1..j + 1] == t[1..j] + [c];
      if c in Tokens.SpecialChars {
        p := p + "\\" + [c];
      } else {
        p := p + [c];
      }
      j := j + 1;
    }
    assert t[1..j] == t[1..];
  }

  /**
   * One pass of the token loop of `convert_line`: the pattern grows by the
   * token's fragment, or the token is refused and nothing is appended.
   */
  method AppendFragment(pattern: string, t: string) returns (r: Option<string>)
    ensures r.None? <==> Fragment(t).None?
    ensures r.Some? ==> r.value == pattern + Fragment(t).value
    ensures r.Some? ==> r.value[..|pattern|] == pattern
  {
    if t == "*" {
      r := Some(pattern + Tokens.AnyPattern);
    } else if t == "i" {
      r := Some(pattern + IntegerFragment());
    } else if |t| > 0 && t[0] == LiteralMarker {
      var p := AppendLiteral(pattern, t);
      r := Some(p);
    } else {
      r := None;
    }
  }

  /** `convert_line`: one pass over the tokens, appending each token's fragment. */
  method ConvertLine(tokens: seq<string>) returns (r: Result<string, LineError>)
    ensures r == LineRegex(tokens)
  {
    var pattern := LineStart;
    var k := 0;
    while k < |tokens|
      invariant 0 <= k <= |tokens|
      invariant Body(tokens[..k]).Some?
      invariant pattern == LineStart + Body(tokens[..k]).value
    {
      var next := AppendFragment(pattern, tokens[k]);
      BodyStep(tokens, k);
      if next.None? {
        return Failure(ValueError(BadPatternMessage));
      }
      pattern := next.value;
      k := k + 1;
    }
    assert tokens[..k] == tokens;
    pattern := pattern + LineEnd;
    return Success(pattern);
  }
}

=== FILE: patterns.dfy ===
/**
 * Regex fragments of pent (pent/patterns.py): the word-boundary wrappers
 * and the table of number patterns, one per (Number, Sign) pair. Patterns
 * are plain strings here; what the number fragments match is stated in
 * module NumberGrammar.
 */
module Patterns {
  import opened Wrappers
  import opened Enums

  /** Exponent markers of scientific notation. */
  const StdScinotMarkers := "deDE"

  /** Numerical punctuation that does not mark a word boundary; '-' must stay last. */
  const StdNumPunct := StdScinotMarkers + "+.-"

  /** Body of the character class of pent's standard word characters. */
  const StdWordChars := "a-zA-Z0-9" + StdNumPunct

  /** Negative lookbehind over the character class `[w]`. */
  function NotAfter(w: string): string { "(?<![" + w + "])" }

  /** Negative lookahead over the character class `[w]`. */
  function NotBefore(w: string): string { "(?![" + w + "])" }

  function WordifyOpen(p: string, w: string): (r: string)
    ensures r == NotAfter(w) + p
    ensures |r| == |p| + |w| + 7
  {
    "(?<![" + w + "])" + p
  }

  function WordifyClose(p: string, w: string): (r: string)
    ensures r == p + NotBefore(w)
    ensures |r| == |p| + |w| + 6
  {
    p + "(?![" + w + "])"
  }

  function WordifyPattern(p: string, w: string): (r: string)
    ensures r == NotAfter(w) + p + NotBefore(w)
  {
    WordifyOpen(WordifyClose(p, w), w)
  }

  function StdWordify(p: string): (r: string)
    ensures r == NotAfter(StdWordChars) + p + NotBefore(StdWordChars)
  {
    WordifyPattern(p, StdWordChars)
  }

  function StdWordifyOpen(p: string): (r: string)
    ensures r == WordifyOpen(p, StdWordChars)
  {
    "(?<![" + StdWordChars + "])" + p
  }

  function StdWordifyClose(p: string): (r: string)
    ensures r == WordifyClose(p, StdWordChars)
  {
    p + "(?![" + StdWordChars + "])"
  }

  /** Applying the standard open and close wrappers separately gives `StdWordify`. */
  lemma StdWordifyComposes(p: string)
    ensures StdWordifyOpen(StdWordifyClose(p)) == StdWordify(p)
  {
  }

  /** Recovers the wrapped pattern: the inverse of `WordifyPattern` for a fixed class. */
  function Unwordify(r: string, w: string): (p: string)
    requires |r| >= |w| * 2 + 13
    ensures |p| == |r| - |w| * 2 - 13
  {
    r[|w| + 7..|r| - |w| - 6]
  }

  lemma UnwordifyRoundTrip(p: string, w: string)
    ensures |WordifyPattern(p, w)| >= |w| * 2 + 13
    ensures Unwordify(WordifyPattern(p, w), w) == p
  {
    var r := WordifyPattern(p, w);
    assert r == NotAfter(w) + (p + NotBefore(w));
    assert r[|w| + 7..] == p + NotBefore(w);
  }

  // ----- Character classes -----

  /**
   * Membership of `c` in the regex character class whose body is `cls`, for
   * bodies made of single characters and `x-y` ranges: a '-' that has a
   * character on both sides forms a range, any other '-' is literal.
   */
  predicate ClassContains(cls: string, c: char)
    decreases |cls|
  {
    if |cls| == 0 then false
    else if |cls| >= 3 && cls[1] == '-' then
      (cls[0] <= c <= cls[2]) || ClassContains(cls[3..], c)
    else
      cls[0] == c || ClassContains(cls[1..], c)
  }

  predicate IsAsciiAlnum(c: char)
  {
    ('a' <= c <= 'z') || ('A' <= c <= 'Z') || ('0' <= c <= '9')
  }

  lemma PunctClass(c: char)
    ensures ClassContains("deDE+.-", c) <==> c in "deDE+.-"
  {
  }

  lemma DigitPunctClass(c: char)
    ensures ClassContains("0-9deDE+.-", c) <==> ('0' <= c <= '9') || c in "deDE+.-"
  {
    PunctClass(c);
    assert "0-9deDE+.-"[3..] == "deDE+.-";
  }

  lemma UpperDigitPunctClass(c: char)
    ensures ClassContains("A-Z0-9deDE+.-", c) <==> ('A' <= c <= 'Z') || ('0' <= c <= '9') || c in "deDE+.-"
  {
    DigitPunctClass(c);
    assert "A-Z0-9deDE+.-"[3..] == "0-9deDE+.-";
  }

  lemma SpelledOutClass(c: char)
    ensures ClassContains("a-zA-Z0-9deDE+.-", c) <==> IsAsciiAlnum(c) || c == '+' || c == '.' || c == '-'
  {
    LowerFirstClass(c);
    UpperDigitPunctClass(c);
    assert c in "deDE+.-" <==> c == 'd' || c == 'e' || c == 'D' || c == 'E' || c == '+' || c == '.' || c == '-';
  }

  lemma LowerFirstClass(c: char)
    ensures ClassContains("a-zA-Z0-9deDE+.-", c) <==> ('a' <= c <= 'z') || ClassContains("A-Z0-9deDE+.-", c)
  {
    assert "a-zA-Z0-9deDE+.-"[3..] == "A-Z0-9deDE+.-";
  }

  /** The standard word characters are the ASCII letters and digits and `+ . -`. */
  lemma StdWordCharsClass(c: char)
    ensures ClassContains(StdWordChars, c) <==> IsAsciiAlnum(c) || c == '+' || c == '.' || c == '-'
  {
    assert StdWordChars == "a-zA-Z0-9deDE+.-";
    SpelledOutClass(c);
  }

  /** Had '-' not been last, `+-.` would be the range '+'..'.', which holds ','. */
  lemma DashNotLastAdmitsComma()
    ensures ClassContains("a-zA-Z0-9deDE+-.", ',')
    ensures !ClassContains(StdWordChars, ',')
  {
    StdWordCharsClass(',');
    assert ClassContains("+-.", ',');
    assert ClassContains("deDE+-.", ',');
    assert "0-9deDE+-."[3..] == "deDE+-.";
    assert ClassContains("0-9deDE+-.", ',');
    assert "A-Z0-9deDE+-."[3..] == "0-9deDE+-.";
    assert ClassContains("A-Z0-9deDE+-.", ',');
    assert "a-zA-Z0-9deDE+-."[3..] == "A-Z0-9deDE+-.";
  }

  // ----- Number fragments -----

  const PIntNums := @"\d+"

  const PFloatNums := @"(\d+\.\d*|\d*\.\d+)"

  const PSciNums := @"(\d+\.?\d*[" + StdScinotMarkers + @"][+-]?\d+|\d*\.\d+[" + StdScinotMarkers + @"][+-]?\d+)"

  const PDecimalNums := "(" + PFloatNums + "|" + PSciNums + ")"

  const PGeneralNums := "(" + PFloatNums + "|" + PSciNums + "|" + PIntNums + ")"

  /** `p` holds neither `{` nor `}`. */
  predicate BraceFree(p: string)
  {
    '{' !in p && '}' !in p
  }

  /** The three base fragments hold no braces. */
  lemma FragmentsBraceFree()
    ensures BraceFree(PIntNums) && BraceFree(PFloatNums) && BraceFree(PSciNums)
  {
    assert BraceFree(@"(\d+\.\d*|\d*\.\d+)");
    assert BraceFree(@"(\d+\.?\d*[");
    assert BraceFree(StdScinotMarkers);
    assert @"][+-]?\d+|\d*\.\d+[" == @"][+-]?\d+|" + @"\d*\.\d+[";
    assert BraceFree(@"][+-]?\d+|");
    assert BraceFree(@"\d*\.\d+[");
    assert BraceFree(@"][+-]?\d+)");
  }

  /**
   * The `_p_nums` table. No fragment holds a brace, and every kind but
   * Integer is one parenthesised group.
   */
  function NumPattern(n: Number): (r: string)
    ensures BraceFree(r)
    ensures n != Integer ==> |r| >= 2 && r[0] == '(' && r[|r| - 1] == ')'
  {
    FragmentsBraceFree();
    match n
    case Integer => PIntNums
    case Float => PFloatNums
    case SciNot => PSciNums
    case Decimal => PDecimalNums
    case General => PGeneralNums
  }

  /**
   * The `_p_signs` table. No entry holds a brace, and the sign can be told
   * from the entry: only Negative starts with `-`, only Any has `-` third.
   */
  function SignPattern(s: Sign): (r: string)
    ensures BraceFree(r) && |r| > 0
    ensures r[0] == '-' <==> s == Negative
    ensures |r| > 2 && r[2] == '-' <==> s == Any
  {
    match s
    case Positive => "[+]?"
    case Negative => "-"
    case Any => "[+-]?"
  }

  /**
   * The entry of `number_patterns` for `(n, s)`: the sign entry followed by
   * the kind's fragment, with no brace anywhere.
   */
  function NumberPattern(n: Number, s: Sign): (r: string)
    ensures BraceFree(r)
  {
    SignPattern(s) + NumPattern(n)
  }

  /** Both enumerations in declaration order, as `itertools.product` walks them. */
  const AllNumbers: seq<Number> := [Integer, Float, SciNot, Decimal, General]
  const AllSigns: seq<Sign> := [Positive, Negative, Any]

  function NumberIndex(n: Number): (i: nat)
    ensures i < |AllNumbers| && AllNumbers[i] == n
  {
    match n case Integer => 0 case Float => 1 case SciNot => 2 case Decimal => 3 case General => 4
  }

  function SignIndex(s: Sign): (i: nat)
    ensures i < |AllSigns| && AllSigns[i] == s
  {
    match s case Positive => 0 case Negative => 1 case Any => 2
  }

  /** Position of a pair in `itertools.product(Number, Sign)`. */
  function PairIndex(key: (Number, Sign)): (k: nat)
    ensures k < |AllNumbers| * |AllSigns|
  {
    NumberIndex(key.0) * 3 + SignIndex(key.1)
  }

  /**
   * `itertools.product(Number, Sign)`: kinds in the outer position, signs in
   * the inner. Each pair sits at its own `PairIndex`, so every pair occurs
   * exactly once.
   */
  function ProductPairs(): (r: seq<(Number, Sign)>)
    ensures |r| == |AllNumbers| * |AllSigns|
    ensures forall key :: r[PairIndex(key)] == key
  {
    seq(15, k requires 0 <= k < 15 => (AllNumbers[k / 3], AllSigns[k % 3]))
  }

  lemma ProductPairsDistinct()
    ensures forall i, j | 0 <= i < j < |ProductPairs()| :: ProductPairs()[i] != ProductPairs()[j]
  {
    var r := ProductPairs();
    forall i, j | 0 <= i < j < |r|
      ensures r[i] != r[j]
    {
      assert PairIndex(r[i]) == i && PairIndex(r[j]) == j;
    }
  }

  /** The dictionary after one `update` per pair of `ps`, in order. */
  function TableOf(ps: seq<(Number, Sign)>): map<(Number, Sign), string>
  {
    if |ps| == 0 then map[]
    else
      var key := ps[|ps| - 1];
      TableOf(ps[..|ps| - 1])[key := NumberPattern(key.0, key.1)]
  }

  /** The keys are the pairs updated, each mapped to its pattern. */
  lemma {:induction false} TableOfEntries(ps: seq<(Number, Sign)>)
    ensures forall key :: key in TableOf(ps) <==> key in ps
    ensures forall key | key in TableOf(ps) :: TableOf(ps)[key] == NumberPattern(key.0, key.1)
  {
    if |ps| > 0 {
      var init := ps[..|ps| - 1];
      TableOfEntries(init);
      assert ps == init + [ps[|ps| - 1]];
    }
  }

  /** Updating with distinct pairs adds one entry per pair. */
  lemma {:induction false} TableOfSize(ps: seq<(Number, Sign)>)
    requires forall i, j | 0 <= i < j < |ps| :: ps[i] != ps[j]
    ensures |TableOf(ps)| == |ps|
  {
    if |ps| > 0 {
      var init := ps[..|ps| - 1];
      TableOfSize(init);
      TableOfEntries(init);
      assert ps[|ps| - 1] !in init by {
        forall i | 0 <= i < |init|
          ensures init[i] != ps[|ps| - 1]
        {
          assert init[i] == ps[i];
        }
      }
    }
  }

  /** Builds `number_patterns` as the module-level loop does, with one `update` per pair. */
  method BuildNumberPatterns() returns (table: map<(Number, Sign), string>)
    ensures forall n: Number, s: Sign :: (n, s) in table && table[(n, s)] == NumberPattern(n, s)
    ensures |table| == |AllNumbers| * |AllSigns|
  {
    var pairs := ProductPairs();
    table := map[];
    for k := 0 to |pairs|
      invariant table == TableOf(pairs[..k])
    {
      var (n, s) := pairs[k];
      assert pairs[..k + 1][..k] == pairs[..k];
      table := table[(n, s) := NumberPattern(n, s)];
    }
    assert pairs[..|pairs|] == pairs;
    ProductPairsComplete();
    ProductPairsDistinct();
    TableOfEveryPair(pairs);
  }

  /** A table built over every pair, each listed once, has an entry, the right one, for each. */
  lemma TableOfEveryPair(ps: seq<(Number, Sign)>)
    requires forall key: (Number, Sign) :: key in ps
    requires forall i, j | 0 <= i < j < |ps| :: ps[i] != ps[j]
    ensures forall n: Number, s: Sign :: (n, s) in TableOf(ps) && TableOf(ps)[(n, s)] == NumberPattern(n, s)
    ensures |TableOf(ps)| == |ps|
  {
    TableOfEntries(ps);
    TableOfSize(ps);
  }

  lemma ProductPairsComplete()
    ensures forall key: (Number, Sign) :: key in ProductPairs()
  {
    var pairs := ProductPairs();
    forall key: (Number, Sign)
      ensures key in pairs
    {
      assert pairs[PairIndex(key)] == key;
    }
  }

  /**
   * Reads the (Number, Sign) pair back from a table entry: the sign from the
   * prefix, the kind from the fragment that follows it.
   */
  function NumberPatternKey(p: string): (r: Option<(Number, Sign)>)
    ensures r.Some? ==> NumberPattern(r.value.0, r.value.1) == p
  {
    var s := if |p| > 0 && p[0] == '-' then Negative
             else if |p| > 2 && p[2] == '-' then Any
             else Positive;
    var k := |SignPattern(s)|;
    if |p| < k || p[..k] != SignPattern(s) then None
    else
      assert p == SignPattern(s) + p[k..];
      var body := p[k..];
      if body == PIntNums then Some((Integer, s))
      else if body == PFloatNums then Some((Float, s))
      else if body == PSciNums then Some((SciNot, s))
      else if body == PDecimalNums then Some((Decimal, s))
      else if body == PGeneralNums then Some((General, s))
      else None
  }

  /** Every entry identifies its key, so no two pairs share a pattern. */
  lemma NumberPatternKeyRoundTrip(n: Number, s: Sign)
    ensures NumberPatternKey(NumberPattern(n, s)) == Some((n, s))
  {
    var p := NumberPattern(n, s);
    var k := |SignPattern(s)|;
    assert p[..k] == SignPattern(s);
    assert p[k..] == NumPattern(n);
    assert |PIntNums| < |PFloatNums| < |PSciNums| < |PDecimalNums| < |PGeneralNums|;
  }
}

=== FILE: thrulist.dfy ===
/**
 * `ThruList.__getitem__` (pent/thrulist.py): a list that, when it holds
 * exactly one element, passes every key that is not an integer through to
 * that element; otherwise it indexes as a Python list does, turning the
 * type error of an unusable key into an `IndexError`.
 *
 * Keys are integers, slices with integer or missing bounds (step 1), or
 * some other value of type K; `show` is how such a key formats itself in
 * the error message, and `inner` is the element's own indexing.
 */
module ThruLists {
  import opened Wrappers

  datatype Key<K> =
    | IntKey(i: int)
    | SliceKey(lo: Option<int>, hi: Option<int>)
    | OtherKey(key: K)

  datatype IndexError = IndexError(msg: string)

  /** What a lookup yields: one element, a sub-list, the element's own answer, or an error. */
  datatype Lookup<T, R> =
    | Item(item: T)
    | Items(items: seq<T>)
    | Passed(answer: R)
    | Raised(error: IndexError)

  const OutOfRange := "list index out of range"

  /**
   * List indexing first converts an integer key to a machine index
   * (`Py_ssize_t`, 64 bits wide here); a key outside that range raises
   * this message before the list's length is looked at.
   */
  const IndexTooWide := "cannot fit 'int' into an index-sized integer"

  predicate FitsIndex(i: int) { -0x8000_0000_0000_0000 <= i < 0x8000_0000_0000_0000 }

  function KeyNotFound(shown: string): (m: string)
    ensures |m| == |shown| + 26
    ensures m[..5] == "Key '" && m[5..5 + |shown|] == shown
    ensures m[5 + |shown|..] == "' not found on item 0"
  {
    "Key '" + shown + "' not found on item 0"
  }

  /** A slice bound resolved as Python resolves it: negative counts from the end, then clamped to the list. */
  function Bound(b: Option<int>, default: nat, n: nat): (r: nat)
    requires default <= n
    ensures r <= n
    ensures b.None? ==> r == default
    ensures b.Some? && 0 <= b.value <= n ==> r == b.value
    ensures b.Some? && b.value < 0 <= b.value + n ==> r == b.value + n
    ensures b.Some? && b.value > n ==> r == n
    ensures b.Some? && b.value + n < 0 ==> r == 0
  {
    match b
    case None => default
    case Some(v) =>
      if v < 0 then (if v + n < 0 then 0 else v + n)
      else if v > n then n
      else v
  }

  /**
   * Plain list indexing, as `list.__getitem__` does it: nothing is passed
   * through, a slice never raises, an integer finds an element exactly when
   * it fits a machine index and is in range, and a key of another type is
   * not found on item 0.
   */
  function ListGetItem<T, K, R>(xs: seq<T>, key: Key<K>, show: K -> string): (r: Lookup<T, R>)
    ensures !r.Passed?
    ensures key.SliceKey? ==> r.Items?
    ensures key.IntKey? ==> (r.Item? <==> FitsIndex(key.i) && -|xs| <= key.i < |xs|)
    ensures key.IntKey? && !FitsIndex(key.i) ==> r == Raised(IndexError(IndexTooWide))
    ensures key.IntKey? && FitsIndex(key.i) ==> r.Item? || r == Raised(IndexError(OutOfRange))
    ensures key.OtherKey? ==> r == Raised(IndexError(KeyNotFound(show(key.key))))
  {
    match key
    case IntKey(i) =>
      if !FitsIndex(i) then Raised(IndexError(IndexTooWide))
      else if 0 <= i < |xs| then Item(xs[i])
      else if -|xs| <= i < 0 then Item(xs[i + |xs|])
      else Raised(IndexError(OutOfRange))
    case SliceKey(lo, hi) =>
      var a, b := Bound(lo, 0, |xs|), Bound(hi, |xs|, |xs|);
      if a < b then Items(xs[a..b]) else Items([])
    case OtherKey(k) => Raised(IndexError(KeyNotFound(show(k))))
  }

  /**
   * `ThruList.__getitem__`: the element answers exactly the non-integer keys
   * of a one-element list; an integer key always indexes the list itself.
   */
  function GetItem<T, K, R>(xs: seq<T>, key: Key<K>, inner: (T, Key<K>) -> R, show: K -> string): (r: Lookup<T, R>)
    ensures r.Passed? <==> !key.IntKey? && |xs| == 1
    ensures key.IntKey? ==> r.Item? || r.Raised?
    ensures key.OtherKey? && |xs| != 1 ==> r.Raised?
  {
    if !key.IntKey? && |xs| == 1 then Passed(inner(xs[0], key))
    else ListGetItem(xs, key, show)
  }

  /** With one element, every non-integer key is answered by that element. */
  lemma PassThrough<T, K, R>(xs: seq<T>, key: Key<K>, inner: (T, Key<K>) -> R, show: K -> string)
    ensures GetItem(xs, key, inner, show).Passed? <==> !key.IntKey? && |xs| == 1
    ensures !key.IntKey? && |xs| == 1 ==> GetItem(xs, key, inner, show) == Passed(inner(xs[0], key))
  {
  }

  /**
   * Integer keys index as in a list, one element or many: a key that fits
   * a machine index and lies in [-|xs|, |xs|) finds the element counted from
   * the front or, when negative, from the back; any other raises the list's
   * own error, which names the width when the key does not fit.
   */
  lemma IntIndexing<T, K, R>(xs: seq<T>, i: int, inner: (T, Key<K>) -> R, show: K -> string)
    ensures var r := GetItem(xs, IntKey(i), inner, show);
      && (r.Item? <==> FitsIndex(i) && -|xs| <= i < |xs|)
      && (r.Item? ==> r.item == xs[if i < 0 then i + |xs| else i])
      && (!r.Item? ==> r == Raised(IndexError(if FitsIndex(i) then OutOfRange else IndexTooWide)))
  {
  }

  /** The last element is at -1. */
  lemma LastAtMinusOne<T, K, R>(xs: seq<T>, inner: (T, Key<K>) -> R, show: K -> string)
    requires |xs| > 0
    ensures GetItem(xs, IntKey(-1), inner, show) == Item(xs[|xs| - 1])
  {
    IntIndexing(xs, -1, inner, show);
  }

  /** A key that is neither integer nor slice, on a list not of length one, is not found on item 0. */
  lemma OtherKeyRaises<T, K, R>(xs: seq<T>, k: K, inner: (T, Key<K>) -> R, show: K -> string)
    requires |xs| != 1
    ensures GetItem(xs, OtherKey(k), inner, show).Raised?
    ensures GetItem(xs, OtherKey(k), inner, show).error.msg == KeyNotFound(show(k))
  {
  }

  /** A slice never raises: it is the run of elements between its resolved bounds. */
  lemma SliceContents<T, K, R>(xs: seq<T>, lo: Option<int>, hi: Option<int>, inner: (T, Key<K>) -> R, show: K -> string)
    requires |xs| != 1
    ensures var r := GetItem(xs, SliceKey(lo, hi), inner, show);
      var a, b := Bound(lo, 0, |xs|), Bound(hi, |xs|, |xs|);
      && r.Items?
      && |r.items| == (if a < b then b - a else 0)
      && forall m | 0 <= m < |r.items| :: r.items[m] == xs[a + m]
  {
  }

  /** Splitting a list at any point and slicing both sides gives the two halves back. */
  lemma SliceSplit<T, K, R>(xs: seq<T>, j: int, inner: (T, Key<K>) -> R, show: K -> string)
    requires |xs| != 1
    ensures GetItem(xs, SliceKey(None, Some(j)), inner, show).items
          + GetItem(xs, SliceKey(Some(j), None), inner, show).items == xs
  {
    var c := Bound(Some(j), 0, |xs|);
    assert Bound(Some(j), |xs|, |xs|) == c;
    assert xs[..c] + xs[c..] == xs;
  }
}

=== FILE: tokens.dfy ===
/**
 * The token compiler of pent (pent/token.py): recognising one token of the
 * mini-language and turning it into a regex pattern.
 *
 * A token is one of
 *   `~` or `~!`                               any content, optionally captured;
 *   `@` [x] [!] quantity text                 a literal string;
 *   `#` [x] [!] quantity sign number          a number;
 * where `x` asks for no trailing space, `!` for a capture group, the
 * quantity is `.` or `+`, the text is non-empty printable ASCII, and the
 * sign and number are the codes of module Enums.
 */
module Tokens {
  import opened Wrappers
  import opened Enums
  import opened Errors
  import Patterns

  const GroupPrefix := "g"
  const AnyFlag := '~'
  const CaptureFlag := '!'
  const NoSpaceFlag := 'x'

  /** Opening of a named group; `{0}` is left for the group id. */
  const GroupOpen := "(?P<" + GroupPrefix + "{0}>"
  const GroupClose := ")"

  /**
   * The three characters `{0}` the group id is meant to replace. A `format`
   * call reads every brace of a pattern, escaped or not, so this model speaks
   * only of this substring, not of what `format` would make of other braces.
   */
  const Placeholder := "{0}"

  /** What the recogniser reads from a token. */
  datatype TokenSpec =
    | AnyToken(capture: bool)
    | Literal(noSpace: bool, capture: bool, quantity: Quantity, text: string)
    | Numeric(noSpace: bool, capture: bool, quantity: Quantity, sign: Sign, number: Number)

  /** A character of literal text: the printable ASCII characters and the space. */
  predicate TextChar(c: char) { ' ' <= c <= '~' }

  predicate IsText(s: string)
  {
    |s| > 0 && forall i | 0 <= i < |s| :: TextChar(s[i])
  }

  predicate WellFormed(spec: TokenSpec)
  {
    spec.Literal? ==> IsText(spec.text)
  }

  /** The optional `x` and `!` flags, in that order. */
  function Flags(noSpace: bool, capture: bool): string
  {
    (if noSpace then [NoSpaceFlag] else []) + (if capture then [CaptureFlag] else [])
  }

  /** The token text of a parse result. */
  function Render(spec: TokenSpec): string
  {
    match spec
    case AnyToken(c) => [AnyFlag] + (if c then [CaptureFlag] else [])
    case Literal(x, c, q, text) =>
      [ContentValue(StringContent)] + Flags(x, c) + [QuantityValue(q)] + text
    case Numeric(x, c, q, sg, n) =>
      [ContentValue(NumberContent)] + Flags(x, c) + [QuantityValue(q), SignValue(sg), NumberValue(n)]
  }

  /**
   * Reads the optional flags greedily, as the optional elements of the
   * grammar do: an `x` is taken if present, then a `!`.
   */
  function ParseFlags(s: string): (r: (bool, bool, string))
    ensures Flags(r.0, r.1) + r.2 == s
    ensures r.0 <==> |s| > 0 && s[0] == NoSpaceFlag
    ensures var afterX := if r.0 then s[1..] else s; r.1 <==> |afterX| > 0 && afterX[0] == CaptureFlag
  {
    var x := |s| > 0 && s[0] == NoSpaceFlag;
    var s1 := if x then s[1..] else s;
    var c := |s1| > 0 && s1[0] == CaptureFlag;
    var s2 := if c then s1[1..] else s1;
    assert Flags(x, c) + s2 == s by {
      if x { assert s == [NoSpaceFlag] + s1; }
      if c { assert s1 == [CaptureFlag] + s2; }
    }
    (x, c, s2)
  }

  lemma ParseFlagsRender(x: bool, c: bool, rest: string)
    requires |rest| > 0 && rest[0] != NoSpaceFlag && rest[0] != CaptureFlag
    ensures ParseFlags(Flags(x, c) + rest) == (x, c, rest)
  {
    var s := Flags(x, c) + rest;
    var s1 := if x then s[1..] else s;
    if x {
      assert s[0] == NoSpaceFlag;
      assert s1 == Flags(false, c) + rest;
    }
    if c {
      assert s1 == [CaptureFlag] + rest;
      assert s1[1..] == rest;
    } else {
      assert s1 == rest;
    }
  }

  /** Reads the sign and number codes that end a number token. */
  function ParseSignNumber(body: string): (r: Option<(Sign, Number)>)
    ensures r.Some? ==> body == [SignValue(r.value.0), NumberValue(r.value.1)]
  {
    if |body| != 2 then None
    else
      match (SignOf(body[0]), NumberOf(body[1]))
      case (Some(sg), Some(n)) => Some((sg, n))
      case _ => None
  }

  /**
   * Reads what follows the marker and the flags of a literal-string or
   * number token: the quantity character, then the text or the two codes.
   */
  function ParseAfterFlags(isString: bool, x: bool, c: bool, rest: string): (r: Option<TokenSpec>)
    ensures r.Some? ==> WellFormed(r.value) && !r.value.AnyToken?
    ensures r.Some? ==>
      Render(r.value) == [ContentValue(if isString then StringContent else NumberContent)] + Flags(x, c) + rest
  {
    if |rest| == 0 then None
    else
      match QuantityOf(rest[0])
      case None => None
      case Some(q) =>
        var body := rest[1..];
        assert rest == [QuantityValue(q)] + body;
        if isString then
          if IsText(body) then Some(Literal(x, c, q, body)) else None
        else
          match ParseSignNumber(body)
          case None => None
          case Some((sg, n)) => Some(Numeric(x, c, q, sg, n))
  }

  /** Reads a literal-string or number token: the marker, the flags, then the rest. */
  function ParseMarked(t: string): (r: Option<TokenSpec>)
    requires |t| > 0
    ensures r.Some? ==> WellFormed(r.value) && !r.value.AnyToken? && Render(r.value) == t
  {
    var isString := t[0] == ContentValue(StringContent);
    if !isString && t[0] != ContentValue(NumberContent) then None
    else
      var flags := ParseFlags(t[1..]);
      var spec := ParseAfterFlags(isString, flags.0, flags.1, flags.2);
      if spec.Some? then
        assert t == [t[0]] + t[1..];
        spec
      else None
  }

  /**
   * The whole-token recogniser, anchored at both ends. A token that is not
   * exactly one of the three forms fails with a `TokenError` holding it.
   */
  function ParseToken(t: string): (r: Result<TokenSpec, PentError>)
    ensures r.Success? ==> WellFormed(r.value) && Render(r.value) == t
    ensures r.Failure? ==> r.error == TokenError(t)
  {
    if |t| == 0 then Failure(TokenError(t))
    else if t[0] == AnyFlag then
      if t == [AnyFlag] then Success(AnyToken(false))
      else if t == [AnyFlag, CaptureFlag] then Success(AnyToken(true))
      else Failure(TokenError(t))
    else
      match ParseMarked(t)
      case None => Failure(TokenError(t))
      case Some(spec) => Success(spec)
  }

  /** Past the marker, the flags are read back and the rest is left to the quantity and body. */
  lemma ParseFlagged(isString: bool, x: bool, c: bool, rest: string)
    requires |rest| > 0 && rest[0] != NoSpaceFlag && rest[0] != CaptureFlag
    ensures ParseMarked([ContentValue(if isString then StringContent else NumberContent)] + Flags(x, c) + rest)
      == ParseAfterFlags(isString, x, c, rest)
  {
    var t := [ContentValue(if isString then StringContent else NumberContent)] + Flags(x, c) + rest;
    assert t[1..] == Flags(x, c) + rest;
    ParseFlagsRender(x, c, rest);
  }

  /** Every well-formed parse result is recognised from its own text. */
  lemma ParseRender(spec: TokenSpec)
    requires WellFormed(spec)
    ensures ParseToken(Render(spec)) == Success(spec)
  {
    match spec
    case AnyToken(c) =>
    case Literal(x, c, q, text) =>
      var rest := [QuantityValue(q)] + text;
      assert rest[1..] == text;
      assert ParseAfterFlags(true, x, c, rest) == Some(spec);
      ParseAfterMarker(spec, rest);
    case Numeric(x, c, q, sg, n) =>
      var rest := [QuantityValue(q), SignValue(sg), NumberValue(n)];
      assert rest[1..] == [SignValue(sg), NumberValue(n)];
      assert ParseAfterFlags(false, x, c, rest) == Some(spec);
      ParseAfterMarker(spec, rest);
  }

  /** The recogniser reads back the flags of a literal-string or number token. */
  lemma ParseAfterMarker(spec: TokenSpec, rest: string)
    requires !spec.AnyToken?
    requires Render(spec) == [ContentValue(if spec.Literal? then StringContent else NumberContent)]
      + Flags(spec.noSpace, spec.capture) + rest
    requires |rest| > 0 && QuantityOf(rest[0]).Some?
    requires ParseAfterFlags(spec.Literal?, spec.noSpace, spec.capture, rest) == Some(spec)
    ensures ParseToken(Render(spec)) == Success(spec)
  {
    ParseFlagged(spec.Literal?, spec.noSpace, spec.capture, rest);
  }

  /** A token is accepted exactly when it is the text of a well-formed parse result. */
  lemma AcceptedIffRendered(t: string, spec: TokenSpec)
    ensures ParseToken(t) == Success(spec) <==> WellFormed(spec) && Render(spec) == t
  {
    if WellFormed(spec) && Render(spec) == t {
      ParseRender(spec);
    }
  }

  /** A literal-string token without text, such as `@x!+`, is refused. */
  lemma EmptyTextRefused(x: bool, c: bool, q: Quantity)
    ensures ParseToken([ContentValue(StringContent)] + Flags(x, c) + [QuantityValue(q)]).Failure?
  {
    var t := [ContentValue(StringContent)] + Flags(x, c) + [QuantityValue(q)];
    assert t[1..] == Flags(x, c) + [QuantityValue(q)];
    ParseFlagsRender(x, c, [QuantityValue(q)]);
  }

  /** Trailing characters after a complete number token are refused. */
  lemma TrailingRefused(spec: TokenSpec, extra: string)
    requires spec.Numeric? && |extra| > 0
    ensures ParseToken(Render(spec) + extra).Failure?
  {
    var body := [SignValue(spec.sign), NumberValue(spec.number)] + extra;
    var rest := [QuantityValue(spec.quantity)] + body;
    assert Render(spec) + extra == [ContentValue(NumberContent)] + Flags(spec.noSpace, spec.capture) + rest;
    ParseFlagged(false, spec.noSpace, spec.capture, rest);
    assert rest[1..] == body;
    assert ParseSignNumber(body).None?;
  }

  // ----- Escaping literal text -----

  /** The characters a literal string escapes: `[ \ ^ $ . | ? * + ( ) { }`. */
  const SpecialChars := "[\\^$.|?*+(){}"

  function SpecialCount(s: string): nat
  {
    if |s| == 0 then 0 else (if s[0] in SpecialChars then 1 else 0) + SpecialCount(s[1..])
  }

  function EscapeChar(c: char): string
  {
    if c in SpecialChars then ['\\', c] else [c]
  }

  /**
   * The pattern of a literal string: each special character gets a
   * backslash in front, every other character is copied.
   */
  function Escape(s: string): (r: string)
    ensures |r| == |s| + SpecialCount(s)
  {
    if |s| == 0 then "" else EscapeChar(s[0]) + Escape(s[1..])
  }

  /** Reads a backslash pair back as the character it escapes. */
  function Unescape(r: string): string
  {
    if |r| == 0 then ""
    else if r[0] == '\\' && |r| >= 2 then [r[1]] + Unescape(r[2..])
    else [r[0]] + Unescape(r[1..])
  }

  lemma {:induction false} UnescapeEscape(s: string)
    ensures Unescape(Escape(s)) == s
  {
    if |s| > 0 {
      UnescapeEscape(s[1..]);
      var e := Escape(s[1..]);
      if s[0] in SpecialChars {
        assert (['\\', s[0]] + e)[2..] == e;
      } else {
        assert s[0] != '\\';
        assert ([s[0]] + e)[1..] == e;
      }
      assert s == [s[0]] + s[1..];
    }
  }

  /** Escaping character by character, as the loop of `StringPattern` does. */
  lemma {:induction false} EscapeSnoc(s: string, c: char)
    ensures Escape(s + [c]) == Escape(s) + EscapeChar(c)
  {
    if |s| == 0 {
      assert [c][1..] == [];
    } else {
      assert (s + [c])[1..] == s[1..] + [c];
      EscapeSnoc(s[1..], c);
    }
  }

  /** Every `{` and every `}` of a pattern directly follows a backslash. */
  predicate BracesEscaped(p: string)
  {
    forall i | 0 <= i < |p| :: (p[i] == '{' || p[i] == '}') ==> 0 < i && p[i - 1] == '\\'
  }

  /** The placeholder starts at index `i` of `p`. */
  predicate PlaceholderAt(p: string, i: int)
  {
    0 <= i && i + 3 <= |p| && p[i..i + 3] == Placeholder
  }

  predicate HasPlaceholder(p: string)
  {
    exists i | 0 <= i < |p| :: PlaceholderAt(p, i)
  }

  lemma BracesEscapedConcat(a: string, b: string)
    requires BracesEscaped(a) && BracesEscaped(b)
    ensures BracesEscaped(a + b)
  {
    forall i | 0 <= i < |a + b| && ((a + b)[i] == '{' || (a + b)[i] == '}')
      ensures 0 < i && (a + b)[i - 1] == '\\'
    {
      if i >= |a| {
        assert b[i - |a|] == (a + b)[i];
      }
    }
  }

  lemma {:induction false} EscapeBracesEscaped(s: string)
    ensures BracesEscaped(Escape(s))
  {
    if |s| > 0 {
      EscapeBracesEscaped(s[1..]);
      BracesEscapedConcat(EscapeChar(s[0]), Escape(s[1..]));
    }
  }

  /** A pattern whose braces are all escaped holds no placeholder. */
  lemma NoPlaceholder(p: string)
    requires BracesEscaped(p)
    ensures !HasPlaceholder(p)
  {
    forall i | 0 <= i && i + 3 <= |p|
      ensures !PlaceholderAt(p, i)
    {
      assert p[i..i + 3][1] == p[i + 1] && p[i..i + 3][2] == p[i + 2];
    }
  }

  lemma NoBraceEscaped(p: string)
    requires Patterns.BraceFree(p)
    ensures BracesEscaped(p)
  {
    forall i | 0 <= i < |p|
      ensures p[i] != '{' && p[i] != '}'
    {
      assert p[i] in p;
    }
  }

  /** No entry of the number table holds a brace, so none is taken for a placeholder. */
  lemma NumberPatternBracesEscaped(n: Number, s: Sign)
    ensures Patterns.BraceFree(Patterns.NumberPattern(n, s))
    ensures BracesEscaped(Patterns.NumberPattern(n, s))
  {
    NoBraceEscaped(Patterns.NumberPattern(n, s));
  }

  /** Grouping a pattern whose braces are escaped adds the only placeholder. */
  lemma GroupPlaceholder(pat: string, grouped: bool)
    ensures grouped ==> HasPlaceholder(GroupEnclose(pat, grouped))
    ensures BracesEscaped(pat) && !grouped ==> !HasPlaceholder(GroupEnclose(pat, grouped))
  {
    if grouped {
      assert GroupOpen == "(?P<g{0}>";
      assert PlaceholderAt(GroupEnclose(pat, grouped), 5);
    } else if BracesEscaped(pat) {
      NoPlaceholder(pat);
    }
  }

  // ----- The pattern of a token -----

  /** `.*?`, the lazy match of any content. */
  const AnyPattern := ".*?"

  /**
   * The pattern before grouping, as `__attrs_post_init__` builds it. Every
   * brace in it is escaped, so it holds no group-id placeholder of its own.
   */
  function InnerPattern(spec: TokenSpec): (r: string)
    ensures BracesEscaped(r)
  {
    match spec
    case AnyToken(_) => AnyPattern
    case Literal(_, _, q, text) =>
      var e := Escape(text);
      EscapeBracesEscaped(text);
      RepeatedEscaped(e);
      if q == Quantity.OneOrMore then "(" + e + ")+" else e
    case Numeric(_, _, q, sg, n) =>
      var p := Patterns.NumberPattern(n, sg);
      NumberPatternBracesEscaped(n, sg);
      RepeatedNumberEscaped(p);
      if q == Quantity.OneOrMore then p + "([ \\t]+" + p + ")*" else p
  }

  /** Repeating an escaped literal pattern keeps its braces escaped. */
  lemma RepeatedEscaped(e: string)
    requires BracesEscaped(e)
    ensures BracesEscaped("(" + e + ")+")
  {
    BracesEscapedConcat("(", e);
    BracesEscapedConcat("(" + e, ")+");
  }

  /** Repeating an escaped number pattern with blank separators keeps its braces escaped. */
  lemma RepeatedNumberEscaped(p: string)
    requires BracesEscaped(p)
    ensures BracesEscaped(p + "([ \\t]+" + p + ")*")
  {
    BracesEscapedConcat(p, "([ \\t]+");
    BracesEscapedConcat(p + "([ \\t]+", p);
    BracesEscapedConcat(p + "([ \\t]+" + p, ")*");
  }

  /**
   * Encloses a pattern in a named group when capture is both asked and
   * flagged: the group opens with the `{0}` placeholder for its id, holds the
   * pattern unchanged and closes with `)`.
   */
  function GroupEnclose(pat: string, grouped: bool): (r: string)
    ensures grouped ==> |r| == |pat| + |GroupOpen| + |GroupClose| && r[|GroupOpen|..|r| - 1] == pat
    ensures grouped ==> r[..|GroupOpen|] == "(?P<g{0}>" && r[|r| - 1..] == ")"
    ensures !grouped ==> r == pat
  {
    if grouped then GroupOpen + pat + GroupClose else pat
  }

  /**
   * The final pattern and `needs_group_id` of a token: `needs_group_id` holds
   * exactly when `do_capture` and `!` are both set, the pattern is the inner
   * pattern grouped exactly then, and exactly then it carries the `{0}`
   * placeholder.
   */
  function TokenPattern(spec: TokenSpec, doCapture: bool): (r: (string, bool))
    ensures r.1 <==> doCapture && spec.capture
    ensures r.0 == GroupEnclose(InnerPattern(spec), r.1)
    ensures HasPlaceholder(r.0) <==> r.1
  {
    var grouped := doCapture && spec.capture;
    GroupPlaceholder(InnerPattern(spec), grouped);
    (GroupEnclose(InnerPattern(spec), grouped), grouped)
  }

  /**
   * An escaped brace of literal text stays in the pattern beside the
   * placeholder: `@!.a{b` gives `(?P<g{0}>a\{b)`, whose second `{` is no
   * placeholder yet is a brace a `format` call would also read.
   */
  lemma LiteralBraceBesidePlaceholder()
    ensures var r := TokenPattern(Literal(false, true, Quantity.Single, "a{b"), true).0;
      && r == "(?P<g{0}>a\\{b)"
      && PlaceholderAt(r, 5)
      && r[11] == '{' && !PlaceholderAt(r, 11)
  {
    EscapeSample();
    var r := "(?P<g{0}>a\\{b)";
    assert GroupEnclose("a\\{b", true) == r;
    assert r[5..8] == Placeholder;
    assert r[11..14][1] == 'b';
  }

  /** Escaping `a{b` puts a backslash before the brace only. */
  lemma EscapeSample()
    ensures Escape("a{b") == "a\\{b"
  {
    assert "a{b"[1..] == "{b" && "{b"[1..] == "b" && "b"[1..] == "";
  }

  /** The literal text is recovered from the pattern of a literal-string token. */
  lemma LiteralPatternRecoversText(spec: TokenSpec, doCapture: bool)
    requires spec.Literal?
    ensures var p := InnerPattern(spec);
      if spec.quantity == Quantity.OneOrMore
      then |p| >= 3 && p[..1] == "(" && p[|p| - 2..] == ")+" && Unescape(p[1..|p| - 2]) == spec.text
      else Unescape(p) == spec.text
  {
    UnescapeEscape(spec.text);
    var e := Escape(spec.text);
    if spec.quantity == Quantity.OneOrMore {
      var p := "(" + e + ")+";
      assert p[1..|p| - 2] == e;
    }
  }

  /** A OneOrMore number pattern is the single pattern, then any number of blank-separated repeats. */
  lemma NumberRepeatShape(x: bool, c: bool, sg: Sign, n: Number)
    ensures var p := Patterns.NumberPattern(n, sg);
      var r := InnerPattern(Numeric(x, c, Quantity.OneOrMore, sg, n));
      && |r| == 2 * |p| + 9
      && r[..|p|] == p
      && r[|p|..|p| + 7] == "([ \\t]+"
      && r[|p| + 7..2 * |p| + 7] == p
      && r[2 * |p| + 7..] == ")*"
  {
    var p := Patterns.NumberPattern(n, sg);
    assert InnerPattern(Numeric(x, c, Quantity.OneOrMore, sg, n)) == p + "([ \\t]+" + p + ")*";
    RepeatShape(p);
  }

  lemma RepeatShape(p: string)
    ensures var r := p + "([ \\t]+" + p + ")*";
      && |r| == 2 * |p| + 9
      && r[..|p|] == p
      && r[|p|..|p| + 7] == "([ \\t]+"
      && r[|p| + 7..2 * |p| + 7] == p
      && r[2 * |p| + 7..] == ")*"
  {
    var sep := "([ \\t]+";
    var r := p + sep + p + ")*";
    assert r[..|p|] == p;
    assert r[|p|..|p| + 7] == sep;
    assert r[|p| + 7..2 * |p| + 7] == p;
  }

  // ----- The token object -----

  /** A text-level view of where a token's quantity character sits. */
  function QuantityIndex(t: string): nat
  {
    1 + (if |t| > 1 && t[1] == NoSpaceFlag then 1 else 0)
      + (if (|t| > 1 && t[1] == CaptureFlag) || (|t| > 2 && t[1] == NoSpaceFlag && t[2] == CaptureFlag) then 1 else 0)
  }

  /** The quantity character of a literal-string or number token sits at `QuantityIndex`. */
  lemma RenderQuantity(spec: TokenSpec)
    requires !spec.AnyToken?
    ensures var t := Render(spec); QuantityIndex(t) < |t| && t[QuantityIndex(t)] == QuantityValue(spec.quantity)
  {
    var t := Render(spec);
    var f := Flags(spec.noSpace, spec.capture);
    assert t[1..1 + |f|] == f;
    assert t[1 + |f|] == QuantityValue(spec.quantity);
  }

  /**
   * A compiled token: the text, the capture switch, the parse result and
   * the pattern with its group-id flag, set once when the token is made.
   */
  class Token {
    const token: string
    const doCapture: bool
    const pr: TokenSpec
    var pattern: string
    var needsGroupId: bool

    /** The parse result is the one read from the token text. */
    predicate Parsed()
    {
      ParseToken(token) == Success(pr)
    }

    ghost predicate Valid()
      reads this
    {
      Parsed() && (pattern, needsGroupId) == TokenPattern(pr, doCapture)
    }

    /**
     * Parses the token and builds its pattern; the caller has checked that
     * the token parses (see `Create` for the failing path).
     */
    constructor (token: string, doCapture: bool)
      requires ParseToken(token).Success?
      ensures this.token == token && this.doCapture == doCapture
      ensures Valid()
    {
      this.token := token;
      this.doCapture := doCapture;
      this.pr := ParseToken(token).value;
      needsGroupId := false;
      pattern := "";
      new;
      if IsAny() {
        var enclosed := SelectiveGroupEnclose(AnyPattern);
        pattern, needsGroupId := enclosed.0, enclosed.1;
      } else {
        if IsStr() {
          pattern := StringPattern();
          if MatchQuantity() == Some(Quantity.OneOrMore) {
            pattern := "(" + pattern + ")+";
          }
        } else {
          pattern := GetNumberPattern();
          if MatchQuantity() == Some(Quantity.OneOrMore) {
            pattern := pattern + "([ \\t]+" + pattern + ")*";
          }
        }
        var enclosed := SelectiveGroupEnclose(pattern);
        pattern, needsGroupId := enclosed.0, enclosed.1;
      }
    }

    /** Makes a token, or fails with `TokenError` when the text is not a token. */
    static method Create(token: string, doCapture: bool) returns (r: Result<Token, PentError>)
      ensures r.Failure? <==> ParseToken(token).Failure?
      ensures r.Failure? ==> r.error == TokenError(token)
      ensures r.Success? ==>
        && fresh(r.value) && r.value.token == token
        && r.value.doCapture == doCapture && r.value.Valid()
    {
      match ParseToken(token)
      case Failure(e) =>
        r := Failure(e);
      case Success(_) =>
        var t := new Token(token, doCapture);
        r := Success(t);
    }

    /** `Token(token)`: capture is asked for unless the caller says otherwise. */
    static method CreateDefault(token: string) returns (r: Result<Token, PentError>)
      ensures r.Failure? <==> ParseToken(token).Failure?
      ensures r.Failure? ==> r.error == TokenError(token)
      ensures r.Success? ==>
        && fresh(r.value) && r.value.token == token
        && r.value.doCapture && r.value.Valid()
    {
      r := Create(token, true);
    }

    function IsAny(): (b: bool)
      requires Parsed()
      ensures b <==> token[0] == AnyFlag
    {
      pr.AnyToken?
    }

    function IsStr(): (b: bool)
      requires Parsed()
      ensures b <==> token[0] == ContentValue(StringContent)
    {
      pr.Literal?
    }

    function IsNum(): (b: bool)
      requires Parsed()
      ensures b <==> token[0] == ContentValue(NumberContent)
    {
      pr.Numeric?
    }

    /** None for an any-content token; otherwise the quantity character read. */
    function MatchQuantity(): (r: Option<Quantity>)
      requires Parsed()
      ensures r.None? <==> token[0] == AnyFlag
      ensures r.Some? ==> QuantityIndex(token) < |token| && token[QuantityIndex(token)] == QuantityValue(r.value)
    {
      if IsAny() then None
      else
        RenderQuantity(pr);
        Some(pr.quantity)
    }

    /** The number kind, read from the last character of a number token. */
    function NumberKind(): (r: Option<Number>)
      requires Parsed()
      ensures r.Some? <==> token[0] == ContentValue(NumberContent)
      ensures r.Some? ==> NumberValue(r.value) == token[|token| - 1]
    {
      if IsNum() then Some(pr.number) else None
    }

    /** The sign, read from the next to last character of a number token. */
    function NumberSign(): (r: Option<Sign>)
      requires Parsed()
      ensures r.Some? <==> token[0] == ContentValue(NumberContent)
      ensures r.Some? ==> |token| >= 2 && SignValue(r.value) == token[|token| - 2]
    {
      if IsNum() then Some(pr.sign) else None
    }

    /** Whether blanks may follow the match: never for any content, else unless `x` was given. */
    function SpaceAfter(): (b: bool)
      requires Parsed()
      ensures b <==> token[0] != AnyFlag && token[1] != NoSpaceFlag
    {
      if IsAny() then false else !pr.noSpace
    }

    /** Whether `!` was given. */
    function Capture(): (b: bool)
      requires Parsed()
      ensures b <==> |token| > 1 && (token[1] == CaptureFlag || (token[1] == NoSpaceFlag && token[2] == CaptureFlag))
    {
      pr.capture
    }

    /** The escaped literal text, built one character at a time. */
    method StringPattern() returns (p: string)
      requires pr.Literal?
      ensures p == Escape(pr.text)
      ensures Unescape(p) == pr.text
    {
      var text := pr.text;
      p := "";
      var i := 0;
      while i < |text|
        invariant 0 <= i <= |text|
        invariant p == Escape(text[..i])
      {
        var c := text[i];
        EscapeSnoc(text[..i], c);
        assert text[..i + 1] == text[..i] + [c];
        if c in SpecialChars {
          p := p + "\\" + [c];
        } else {
          p := p + [c];
        }
        i := i + 1;
      }
      assert text[..i] == text;
      UnescapeEscape(text);
    }

    /** The table entry of the token's kind and sign; it identifies both. */
    function GetNumberPattern(): (r: string)
      requires Parsed() && IsNum()
      ensures Patterns.NumberPatternKey(r) == Some((pr.number, pr.sign))
    {
      Patterns.NumberPatternKeyRoundTrip(pr.number, pr.sign);
      Patterns.NumberPattern(pr.number, pr.sign)
    }

    /**
     * Groups the pattern when capture is asked and flagged. For a pattern
     * whose braces are escaped, the result holds the group-id placeholder
     * exactly when it was grouped.
     */
    function SelectiveGroupEnclose(pat: string): (r: (string, bool))
      requires Parsed()
      ensures r.1 <==> doCapture && Capture()
      ensures r.0 == GroupEnclose(pat, r.1)
      ensures BracesEscaped(pat) ==> (HasPlaceholder(r.0) <==> r.1)
    {
      var grouped := doCapture && Capture();
      GroupPlaceholder(pat, grouped);
      (GroupEnclose(pat, grouped), grouped)
    }
  }
}

=== FILE: utils.dfy ===
/**
 * Column stacking of 2-d data blocks (`column_stack_2d`, pent/utils.py).
 *
 * A block is a sequence of rows; the result zips the blocks row by row
 * (stopping at the shortest block) and concatenates, in block order, the
 * rows that meet at each index.
 */
module Utils {

  function Min(a: nat, b: nat): nat
  {
    if a <= b then a else b
  }

  /** How many rows zipping the blocks yields: the shortest block's row count, none without blocks. */
  function ShortestRows<T>(data: seq<seq<seq<T>>>): (n: nat)
    ensures |data| == 0 ==> n == 0
    ensures forall j | 0 <= j < |data| :: n <= |data[j]|
    ensures |data| > 0 ==> exists j | 0 <= j < |data| :: n == |data[j]|
  {
    if |data| == 0 then 0
    else if |data| == 1 then |data[0]|
    else
      var init := data[..|data| - 1];
      var m := ShortestRows(init);
      assert forall j | 0 <= j < |init| :: init[j] == data[j];
      Min(m, |data[|data| - 1]|)
  }

  /** Every block has a row at index i. */
  predicate HasRow<T>(data: seq<seq<seq<T>>>, i: nat)
  {
    forall j | 0 <= j < |data| :: i < |data[j]|
  }

  /**
   * Row i of every block, chained together in block order: its length is
   * the sum of the lengths of row i across the blocks.
   */
  function ChainRow<T>(data: seq<seq<seq<T>>>, i: nat): (r: seq<T>)
    requires HasRow(data, i)
    ensures |r| == Sum(Widths(data, i))
  {
    if |data| == 0 then []
    else
      assert Widths(data, i)[..|data| - 1] == Widths(data[..|data| - 1], i);
      ChainRow(data[..|data| - 1], i) + data[|data| - 1][i]
  }

  /** `column_stack_2d(data)`. */
  function ColumnStack2d<T>(data: seq<seq<seq<T>>>): (r: seq<seq<T>>)
    ensures |r| == ShortestRows(data)
  {
    seq(ShortestRows(data), i requires 0 <= i < ShortestRows(data) => ChainRow(data, i))
  }

  function Sum(xs: seq<nat>): nat
  {
    if |xs| == 0 then 0 else Sum(xs[..|xs| - 1]) + xs[|xs| - 1]
  }

  /** The lengths of row i across the blocks. */
  function Widths<T>(data: seq<seq<seq<T>>>, i: nat): (w: seq<nat>)
    requires HasRow(data, i)
    ensures |w| == |data|
  {
    seq(|data|, j requires 0 <= j < |data| => |data[j][i]|)
  }

  /** Zip truncates: there are exactly as many output rows as the shortest block has. */
  lemma RowCountIsShortest<T>(data: seq<seq<seq<T>>>)
    ensures forall j | 0 <= j < |data| :: |ColumnStack2d(data)| <= |data[j]|
    ensures |data| > 0 ==> exists j | 0 <= j < |data| :: |ColumnStack2d(data)| == |data[j]|
    ensures forall i | 0 <= i < |ColumnStack2d(data)| :: HasRow(data, i)
  {
    if |data| > 0 {
      var j :| 0 <= j < |data| && ShortestRows(data) == |data[j]|;
      assert |ColumnStack2d(data)| == |data[j]|;
    }
  }

  /** No blocks, no rows. */
  lemma NoBlocks<T>()
    ensures ColumnStack2d<T>([]) == []
  {
  }

  /**
   * Element k of block j's row i sits in the output row after the rows of the
   * blocks before j: row i is the blocks' rows laid end to end in block order.
   */
  lemma {:induction false} RowContents<T>(data: seq<seq<seq<T>>>, i: nat, j: nat, k: nat)
    requires HasRow(data, i) && j < |data| && k < |data[j][i]|
    ensures Sum(Widths(data[..j], i)) + k < |ChainRow(data, i)|
    ensures ChainRow(data, i)[Sum(Widths(data[..j], i)) + k] == data[j][i][k]
  {
    var init := data[..|data| - 1];
    assert HasRow(init, i);
    if j == |data| - 1 {
      assert init == data[..j];
    } else {
      RowContents(init, i, j, k);
      assert init[..j] == data[..j];
    }
  }

  /** A single block is returned row for row. */
  lemma SingleBlock<T>(block: seq<seq<T>>)
    ensures ColumnStack2d([block]) == block
  {
    var r := ColumnStack2d([block]);
    forall i | 0 <= i < |block|
      ensures r[i] == block[i]
    {
      assert [block][..0] == [];
      assert ChainRow([block], i) == ChainRow([], i) + block[i];
    }
  }

  /** Chaining row i over two runs of blocks joins the two chains. */
  lemma {:induction false} ChainRowAppend<T>(a: seq<seq<seq<T>>>, b: seq<seq<seq<T>>>, i: nat)
    requires HasRow(a, i) && HasRow(b, i)
    ensures HasRow(a + b, i)
    ensures ChainRow(a + b, i) == ChainRow(a, i) + ChainRow(b, i)
  {
    if |b| == 0 {
      assert a + b == a;
    } else {
      var init := b[..|b| - 1];
      assert HasRow(init, i);
      assert (a + b)[..|a + b| - 1] == a + init;
      assert (a + b)[|a + b| - 1] == b[|b| - 1];
      ChainRowAppend(a, init, i);
    }
  }

  /** Stacking two runs of blocks stacks their stacked rows, up to the shorter of the two. */
  lemma ColumnStackAppend<T>(a: seq<seq<seq<T>>>, b: seq<seq<seq<T>>>)
    requires |a| > 0 && |b| > 0
    ensures |ColumnStack2d(a + b)| == Min(|ColumnStack2d(a)|, |ColumnStack2d(b)|)
    ensures forall i | 0 <= i < |ColumnStack2d(a + b)| ::
      ColumnStack2d(a + b)[i] == ColumnStack2d(a)[i] + ColumnStack2d(b)[i]
  {
    var n, na, nb := ShortestRows(a + b), ShortestRows(a), ShortestRows(b);
    assert forall j | 0 <= j < |a| :: (a + b)[j] == a[j];
    assert forall j | 0 <= j < |b| :: (a + b)[|a| + j] == b[j];
    assert n == Min(na, nb);
    forall i | 0 <= i < n
      ensures ColumnStack2d(a + b)[i] == ColumnStack2d(a)[i] + ColumnStack2d(b)[i]
    {
      ChainRowAppend(a, b, i);
    }
  }
}

=== FILE: wrappers.dfy ===
/** Option and Result, used for the Python code's `None` results and raised exceptions. */
module Wrappers {

  datatype Option<+T> = None | Some(value: T)

  datatype Result<+T, +E> = Success(value: T) | Failure(error: E)
}
